=== FILE: README.md ===
# Stack 5 board engine in Dafny

This project models the board engine of the 2048-style game "Stack 5" and
proves properties about it. The model covers:

- the grid of cells: addressing, neighbours, and the search for an empty cell;
- the tile objects and their cell back-references;
- move resolution: the merge rule, the slide-or-merge walk of one tile, the
  order in which a move visits the tiles, and the undo snapshot;
- the spawn policy: the anti-streak counters and the prime tiles 2222 and
  3333;
- settling after a move, and the game-over test;
- saving the board as (x, y, value) triples plus the score, and restoring it;
- the game manager's score, stored high score, next-tile preview, and the
  seeding of a new game.

The engine is modelled as pure functions over an immutable state. The board
is a map from coordinates `(x, y)` to tile records `(value, locked, prime)`.
Row 0 is the top row, so moving up lowers the row index. The game manager's
state is a record of plain fields. Some of these fields are members the board
uses that `GameManager.cs` does not define: the score getter, the highest
tile, the undo snapshot, and the special-tile switch. Random draws
are passed in as parameters:

- `start`: the start index of the empty-cell search;
- `roll`: the special-tile roll in [0, 50);
- `draw`: the preview coin in [0, 1].

Modules, one per file:

| file | module | models |
|---|---|---|
| options.dfy | Options | optional values |
| grid.dfy | TileGrid | `TileGrid.cs` |
| tile.dfy | TileObjects | `Tile.cs`: tiles and cells pointing at each other |
| savedata.dfy | SaveData | the saved-board records |
| manager.dfy | GameManager | score, high score, preview (`GameManager.cs`) |
| board.dfy | Board | board state, tile count, merge rule, clearing |
| codec.dfy | Codec | `GetBoardJson` / `RestoreBoardFromJson` |
| moves.dfy | Moves | `Merge`, `MoveTile`, `Move` |
| spawn.dfy | Spawning | the `CreateTile*` family and the prime-tile effect |
| turn.dfy | Turns | `WaitForChange`, `CheckForGameOver`, one whole input |
| session.dfy | Session | `NewGame` |

Behaviour of the program that the model follows as written:

- **Empty-cell search.** The search probes linearly from a random start index
  and wraps around. Every start in a run of occupied cells picks the first
  free cell after that run, so the cell chosen is not uniform among the free
  cells (`TileGrid.GetRandomEmptyCell`).
- **Visiting order for "up".** Row 0 is the top row. Moving up visits rows
  1, 2, … in that order, so tiles nearer the top edge move first
  (`Moves.VisitOrder`). Because of this order, no gap is left after a move:
  every tile has the destination edge or another tile right in front of it
  (`Moves.Move`, proved through `Moves.MoveAllPacks`).
- **What "changed" means.** The move's flag is the OR of the flags of the
  single tile moves. It is true exactly when the set of occupied cells
  differs afterwards. Each reported tile move lowers the summed distance of
  the tiles to the destination edge, so later moves cannot restore the cells
  (`Moves.MoveAll`). No tile disappears without a trace: every cell a move
  empties has a tile further along its line (`Moves.Move`).
- **Spawning onto a full grid.** With no free cell the empty-cell search
  yields null and the spawn fails on it. The model requires a free cell for a
  spawn and proves that a move which changed the board always leaves one
  (`Moves.Move`).
- **Restoring an unknown number.** Restore looks up every saved number in
  the tile-state table, and the lookup fails for a number the table lacks.
  The model requires every number to be in the table.
- **Runs of equal previews.** Three equal previews in a row can happen,
  because a forced flip restarts the streak at 0
  (`GameManager.ThreeEqualPreviewsHappen`); four cannot
  (`GameManager.NoFourEqualPreviews`).

## Model

| member | source | states |
|---|---|---|
| TileGrid.CellsMatchLayout | Assets/Scripts/TileGrid.cs:14-20 | the flattened cell array has width·height cells in row-major order, and size / height gives the width back on a rectangular grid |
| TileGrid.FlattenLayout | Assets/Scripts/TileGrid.cs:29-38 | position i of the rows laid end to end is the cell (i mod width, i div width) that start-up gives those coordinates |
| TileGrid.CellAtInBounds | Assets/Scripts/TileGrid.cs:14-20 | every index below size names an on-grid cell, and the index of that cell is the index itself |
| TileGrid.FlatIndexInBounds | Assets/Scripts/TileGrid.cs:14-20 | every on-grid cell has an index below size that maps back to it |
| TileGrid.GetCell | Assets/Scripts/TileGrid.cs:40-50 | a cell is returned exactly when 0 ≤ x < width and 0 ≤ y < height, and it carries the coordinates (x, y) |
| TileGrid.Adjacent | Assets/Scripts/TileGrid.cs:57-66 | the neighbour exists exactly when the cell one step in the direction is on the grid, and then it is that cell |
| TileGrid.UpLowersRow | Assets/Scripts/TileGrid.cs:57-66 | up from row y > 0 is row y − 1 of the same column, the top row has no upper neighbour, and down mirrors this at the bottom |
| TileGrid.Reach | Assets/Scripts/TileBoard.cs:356-371 | the walk over empty cells covers k cells: all on the grid and empty, with the edge or a tile right after them, and never past the edge |
| TileGrid.ReachUnique | Assets/Scripts/TileBoard.cs:356-371 | any k whose first k cells are free and whose next cell is blocked is the walk's length |
| TileGrid.ProbeOffset | Assets/Scripts/TileGrid.cs:70-88 | the probe count before the first free cell: every earlier probe hits an occupied cell, and the count is size when none is free |
| TileGrid.ProbesCoverGrid | Assets/Scripts/TileGrid.cs:70-88 | every cell is reached by one of the first size probes from any start |
| TileGrid.GetRandomEmptyCell | Assets/Scripts/TileGrid.cs:68-91 | nothing is returned exactly when every cell is occupied; otherwise the result is an empty on-grid cell, and it is the first free cell at or cyclically after the start index |
| TileGrid.OneEmptyCellIsFound | Assets/Scripts/TileGrid.cs:68-91 | with exactly one free cell, every start index finds that cell |
| TileObjects.SetState | Assets/Scripts/Tile.cs:22-30 | only the number changes; the cell, the lock and every other tile stay the same, and the cell links stay consistent |
| TileObjects.Spawn | Assets/Scripts/Tile.cs:32-43 | the previous cell forgets the tile, the tile and the new cell point at each other, and consistency is kept when that cell was free |
| TileObjects.MoveTo | Assets/Scripts/Tile.cs:45-54 | the old cell is emptied, the tile and the target point at each other, and nothing else about the tile changes |
| TileObjects.Merge | Assets/Scripts/Tile.cs:56-79 | the source cell is emptied, the tile leaves the board, the tile in the target cell is locked, and consistency is kept |
| GameManager.Other | Assets/Scripts/GameManager.cs:188 | the flip of a small number is 2 or 3 and differs from it; it swaps 2 and 3 |
| GameManager.SaveHiscore | Assets/Scripts/GameManager.cs:129-136 | the stored high score becomes the larger of itself and the score, and nothing else changes |
| GameManager.SetScore | Assets/Scripts/GameManager.cs:121-126 | the score is set and the stored high score becomes max(previous high score, score) |
| GameManager.IncreaseScore | Assets/Scripts/GameManager.cs:115-119 | the score rises by exactly the points, and the high score stays the maximum |
| GameManager.HiscoreIsRunningMaximum | Assets/Scripts/GameManager.cs:115-136 | after any sequence of score updates the stored high score is the maximum of its start value and every score set, so it never decreases |
| GameManager.PrepareNextTile | Assets/Scripts/GameManager.cs:182-204 | the preview is 2 or 3; at a streak of 2 or more it flips and the streak restarts at 0; otherwise the draw picks the number (2 below one half), a repeat extends the streak by one and a new number sets it to exactly 1; nothing else in the manager changes |
| GameManager.NoFourEqualPreviews | Assets/Scripts/GameManager.cs:182-204 | for any draws, every preview is 2 or 3 and no four consecutive previews are equal |
| GameManager.ThreeEqualPreviewsHappen | Assets/Scripts/GameManager.cs:186-199 | a forced flip followed by two equal draws shows three equal previews in a row |
| Board.CanMerge | Assets/Scripts/TileBoard.cs:386-401 | never into a locked tile; otherwise exactly when the numbers are {2, 3} or equal and at least 5 |
| Board.TileCount | Assets/Scripts/TileBoard.cs:19-22 | the live tile count never exceeds the number of occupied cells, and equals it when no prime tile is waiting |
| Board.MergedValue | Assets/Scripts/TileBoard.cs:409-417 | whenever the merge rule allows a merge (a 2/3 pair or equal numbers) the merged number is the sum of the two |
| Board.MergeRuleFacts | Assets/Scripts/TileBoard.cs:386-418 | between unlocked tiles the rule is symmetric, 2+2 and 3+3 never merge, a 2/3 pair makes 5 and an equal pair doubles |
| Board.ClearBoard | Assets/Scripts/TileBoard.cs:139-150 | no tile is left in any cell, prime tiles included, and the counters and the manager are untouched |
| Codec.Encode | Assets/Scripts/TileBoard.cs:63-83 | the triples are exactly the live tiles from the given index on, with their numbers, in increasing row-major order |
| Codec.GetBoardJson | Assets/Scripts/TileBoard.cs:63-83 | the save holds the score and one triple per live tile, with pairwise different cells; waiting prime tiles are not saved |
| Codec.Place | Assets/Scripts/TileBoard.cs:103-118 | every triple on the grid gets an unlocked tile with its number, triples off the grid are skipped, and no other cell is filled |
| Codec.RestoreBoardFromJson | Assets/Scripts/TileBoard.cs:85-121 | without a save nothing changes; with one the board holds exactly the on-grid triples as unlocked live tiles and the score is set |
| Codec.EncodeSameListed | Assets/Scripts/TileBoard.cs:63-83 | two boards whose live tiles agree cell for cell save the same triples |
| Codec.PlaceEncoding | Assets/Scripts/TileBoard.cs:63-121 | placing the saved triples of a board rebuilds its live tiles, unlocked |
| Codec.SaveRestoreRoundTrip | Assets/Scripts/TileBoard.cs:63-121 | save, restore and save again: the live tiles come back unlocked in the same cells, the score is the same, and the second save equals the first |
| Codec.RestoreSaveRoundTrip | Assets/Scripts/TileBoard.cs:63-121 | restoring distinct on-grid triples with known numbers and saving again gives the same set of triples and the same score |
| Moves.MergeInto | Assets/Scripts/TileBoard.cs:404-432 | the moving tile leaves and the standing tile survives, locked; a known merged number replaces its number and adds five times that number to the score; the highest tile becomes the larger of itself and the merged number; the live count drops by one unless the moving tile is a waiting prime tile |
| Moves.Relocate | Assets/Scripts/TileBoard.cs:375-379 | a slide into an empty cell keeps the tile and the tile count and leaves the board with a free cell |
| Moves.Walk | Assets/Scripts/TileBoard.cs:356-373 | the walk ends in a merge exactly when a mergeable tile follows the reach, in a slide to the farthest free cell exactly when the tile can slide, and stays exactly when the tile is stuck |
| Moves.MoveTile | Assets/Scripts/TileBoard.cs:354-382 | it reports no change exactly when the board is unchanged; a change empties the starting cell, loses no other tile, keeps the board on the grid and leaves a free cell |
| Moves.MoveCasesExhaustive | Assets/Scripts/TileBoard.cs:354-382 | every tile is either stuck, slides over exactly its reach, or merges after it |
| Moves.MoveTileSlides | Assets/Scripts/TileBoard.cs:362-381 | a tile that can slide k cells with no merge at the end lands in the farthest empty cell and reports a change |
| Moves.MoveTileMerges | Assets/Scripts/TileBoard.cs:360-366 | a tile that meets a tile it may merge into after k empty cells merges into it |
| Moves.MoveTileStuck | Assets/Scripts/TileBoard.cs:354-382 | a tile facing the edge or a tile it cannot merge into leaves the board as it was and reports no change |
| Moves.Params | Assets/Scripts/TileBoard.cs:44-57 | each direction's loops start one cell from the destination edge and step away from it, and run over the whole cross axis from 0 upwards |
| Moves.Order | Assets/Scripts/TileBoard.cs:332-342 | the nested loops visit exactly the on-grid cells that are not on the destination edge |
| Moves.VisitOrder | Assets/Scripts/TileBoard.cs:44-57 | each direction's loop bounds visit every cell off the destination edge once, and along each line the cells nearer that edge come first |
| Moves.Snapshot | Assets/Scripts/TileBoard.cs:328-329 | the undo snapshot is the save of the board before the move and the score before it; the board, the counters and the rest of the manager are unchanged |
| Moves.MoveTileKeys | Assets/Scripts/TileBoard.cs:354-382 | one tile move leaves the occupied cells as they were with the tile already against the edge or a tile, or moves the tile to a cell with the edge or a tile in front, or removes it into the tile right after its reach |
| Moves.VisitPacks | Assets/Scripts/TileBoard.cs:332-382 | visiting one cell keeps every tile outside the remaining visits against the edge or a tile, provided the cell behind each remaining visit is visited later |
| Moves.MoveAllPacks | Assets/Scripts/TileBoard.cs:332-382 | visiting the cells in turn under that proviso leaves every tile against the edge or a tile |
| Moves.OrderPacks | Assets/Scripts/TileBoard.cs:332-342 | the visiting order meets the proviso, and every tile it skips is on the destination edge |
| Moves.MoveTileLowers | Assets/Scripts/TileBoard.cs:354-382 | a tile move that reports a change lowers the summed distance of the occupied cells to the destination edge: a slide moves the tile closer, and a merge removes it in favour of a tile that is closer |
| Moves.VisitAhead | Assets/Scripts/TileBoard.cs:354-382 | a tile move empties at most the tile's own cell, and then a tile stands further along its line: where it slid to, or the tile it merged into |
| Moves.VisitKeeps | Assets/Scripts/TileBoard.cs:336-340 | visiting one cell, occupied or not, leaves a tile ahead of every cell it empties, and lowers the summed edge distance whenever it reports a change |
| Moves.AheadTrans | Assets/Scripts/TileBoard.cs:332-341 | "a tile stands ahead of every emptied cell" carries over a sequence of visits |
| Moves.MoveAll | Assets/Scripts/TileBoard.cs:332-341 | folding the tile moves over the visiting order: the reported change is true exactly when the set of occupied cells differs afterwards, and then the summed edge distance has dropped; every cell the fold empties has a tile ahead of it on its line; no change reported means the game is unchanged; tile count, high score and highest tile move in the right direction |
| Moves.Move | Assets/Scripts/TileBoard.cs:325-382 | the undo snapshot holds the board and the score from before the move; an unchanged board keeps its score; a change leaves a free cell; afterwards every tile has the destination edge or another tile right in front of it; the move reports a change exactly when the occupied cells differ; every cell the move empties has a tile further along its line |
| Moves.SingleColumnUp | Assets/Scripts/TileBoard.cs:325-432 | in a column of four with a 2 in row 1 and a 3 in row 2, moving up leaves one locked 5 in row 0 and adds 25 to the score |
| Spawning.NextSpawn | Assets/Scripts/TileBoard.cs:256-281 | a forced spawn is the other small number and restarts the streak at 0; otherwise the preview is spawned, a new number restarts the streak at 1, and a repeat extends it; the next spawn is forced exactly when a repeat brings the streak to 3 |
| Spawning.NoFiveEqualSpawns | Assets/Scripts/TileBoard.cs:256-281 | whatever the previews, five equal spawns in a row never happen |
| Spawning.FourEqualSpawnsHappen | Assets/Scripts/TileBoard.cs:256-281 | a forced spawn followed by three repeats gives four equal spawns, and the fifth is forced back |
| Spawning.CreateSpecificTile | Assets/Scripts/TileBoard.cs:303-322 | one unlocked tile is added in the cell the empty-cell search picks from `start`, with the number or 0 when the table lacks it; no other cell changes; the counters and the manager are untouched |
| Spawning.CreateTileClassic | Assets/Scripts/TileBoard.cs:249-299 | the counters advance by the anti-streak rule, the chosen number lands in the cell the empty-cell search picks from `start` and no other cell changes, and the manager is exactly the one the preview step makes from `draw` |
| Spawning.TriggerPrimeTileEffect | Assets/Scripts/TileBoard.cs:468-481 | every other live tile with the target number becomes 5 with its lock kept, the prime tile leaves the live list, and no live tile with the target number remains |
| Spawning.SpawnPrime | Assets/Scripts/TileBoard.cs:182-197 | the prime tile fills the cell the empty-cell search picks from `start` and the board is the prime effect applied there: every other live target turns into 5, the prime tile leaves the live list, and no live tile shows the target; the counters and the manager are untouched |
| Spawning.CreateTileWithST | Assets/Scripts/TileBoard.cs:178-246 | a roll of 22 is the prime spawn of 2222 with target 2 and clears every live 2, a roll of 33 the prime spawn of 3333 with target 3 and clears every live 3, both without touching the counters or the manager; any other roll is the classic spawn; exactly one empty cell is filled |
| Spawning.CreateTile | Assets/Scripts/TileBoard.cs:166-176 | with the special-tile switch on it is the special-tile spawn, otherwise the classic spawn; either way exactly one empty cell is filled and the score and the snapshot are untouched |
| Spawning.ExpirePrime | Assets/Scripts/TileBoard.cs:483-492 | a prime tile still waiting in its cell is removed, and otherwise nothing happens; the live list is unchanged |
| Turns.Unlock | Assets/Scripts/TileBoard.cs:453-456 | every live tile is unlocked, and numbers, cells and the live list are unchanged |
| Turns.CheckForGameOver | Assets/Scripts/TileBoard.cs:494-530 | the verdict is true exactly when the live tiles fill the grid and none can merge into an orthogonal neighbour |
| Turns.GameOverMeansNoMove | Assets/Scripts/TileBoard.cs:494-530 | on a board the test calls over, no direction changes the board |
| Turns.NoMoveMeansGameOver | Assets/Scripts/TileBoard.cs:494-530 | on a grid full of live tiles where no direction changes the board, the test calls it over |
| Turns.MergeableMoves | Assets/Scripts/TileBoard.cs:494-530 | a live tile that can merge into its neighbour makes the move towards that neighbour change the board |
| Turns.CheckerboardIsNotOver | Assets/Scripts/TileBoard.cs:494-530 | a 2×2 checkerboard of 2s and 3s is not over |
| Turns.AllTwosIsOver | Assets/Scripts/TileBoard.cs:494-530 | a 2×2 board of 2s is over |
| Turns.Settled | Assets/Scripts/TileBoard.cs:453-460 | the live tiles are unlocked; when the live count is the grid size nothing else changes, otherwise the unlocked board gets one spawn into a previously empty cell, and a classic spawn leaves every old tile as it was after unlocking |
| Turns.Settle | Assets/Scripts/TileBoard.cs:445-466 | the result is the settled board, one tile is added exactly when the live count is not the grid size, and the verdict is the game-over test of the result |
| Turns.Turn | Assets/Scripts/TileBoard.cs:325-352 | the snapshot is taken even when nothing moves; without a change the result is the move's result and never over; after a change it is the move's result settled, and the verdict is the game-over test of it |
| Turns.UndoRestoresBoard | Assets/Scripts/TileBoard.cs:328-329 | restoring the snapshot a move took gives back the live tiles from before the move, unlocked, and the score from before it |
| Session.NewGame | Assets/Scripts/GameManager.cs:87-105 | the score is 0, the board holds exactly three tiles, one each of 2, 3 and 5, the preview is 2 or 3, and the spawn counters are untouched; the manager is the one the preview step makes from `draw` after the score reset |

## Left out

- Animation, sound, UI text, menus, pausing and input polling (`Update`) are left out. They do not affect the board. The waits before settling and before a prime tile is destroyed are left out too: settling is one synchronous step, and the later destruction is `Spawning.ExpirePrime`.
- The JSON text encoding of a save is left out, and so is the player-preferences store. A save is the triple list and the score, and a missing or unreadable save is `None`. The high score and the highest tile are plain fields.
- The input guard at `Assets/Scripts/TileBoard.cs:327` is left out. It requires waiting, no input allowed and animating all at once, which the input handler never calls a move in.
- `GameManager.GameOver` (the game-over screen) is left out. The settle step returns the game-over verdict instead.
- Codec.RestoreBoardFromJson requires every number in the save to be in the state table. With an unknown number, the lookup in the source fails rather than skipping the triple.
- Codec.RestoreBoardFromJson requires the saved cells to be pairwise different. With a repeated cell the source would list two tiles for one cell.
- Codec.GetBoardJson writes the triples in row-major cell order. The source writes them in the order of its live tile list. The order carries no meaning on restore, and the round-trip lemmas compare sets of triples or boards.
- Spawning.CreateTileClassic, Spawning.CreateTileWithST, Spawning.CreateSpecificTile and Spawning.CreateTile require a free cell on the grid. In the source a spawn onto a full grid fails on the null cell. `Moves.Move` proves that a move which changed the board leaves a free cell, so the settle step always has one.
- Turns.Settled and Turns.Settle require a free cell whenever the tile count is below the grid size. A prime tile waiting in its cell can fill the grid while the count is below the size; `Turns.Turn` discharges the requirement from the move.
- Spawning.ExpirePrime is given the cell the prime tile now occupies. The model identifies tiles by their cells, so following a prime tile across moves is left to the caller.
- The tile-object heap in `TileObjects` (module of `tile.dfy`) is a separate model of the cell back-references. The board modules work on a map from cells to tiles, which stands for that heap with the references resolved. This is a modelling choice: no lemma relates the two.
- Moves.MergeInto and GameManager.IncreaseScore work on unbounded integers. The source uses 32-bit C# `int` for the merged number `b.number * 2` (`Assets/Scripts/TileBoard.cs:409-417`) and for the points `number * 5` (`Assets/Scripts/TileBoard.cs:429`) and the score they are added to (`Assets/Scripts/GameManager.cs:115-119`), and its wrap-around is not modelled. On the 4×4 board the numbers stay far below 2^31.
- The grid is taken to be rectangular. The source derives the width as size / height, which matches only then.

=== FILE: board.dfy ===
/** The board the engine works on (TileBoard.cs): the tiles in the grid's
    cells, the spawn-streak counters and the game manager's state, and the
    merge rule.

    The board maps each occupied cell to the record of its tile. A prime tile
    (2222 or 3333) stays in its cell for a while after it has been dropped
    from the board's list of live tiles; such a tile carries `prime`, and the
    tile count, which is the length of that list, leaves it out. */
module Board {
  import opened TileGrid
  import opened GameManager

  /** The grid and the numbers of the tile-state table (the values a tile may
      be given a colour for). */
  datatype Config = Config(grid: Grid, table: seq<int>)

  /** The table always has entries for 2, 3 and 5. */
  predicate ValidConfig(cfg: Config) {
    Valid(cfg.grid) && 2 in cfg.table && 3 in cfg.table && 5 in cfg.table
  }

  /** A tile on the board: its number, whether it was the target of a merge
      during the current move, and whether it is a prime tile waiting to be
      destroyed (no longer in the live tile list). */
  datatype Tile = Tile(value: int, locked: bool, prime: bool)

  /** The spawn-time anti-streak counters: the last number spawned (-1 before
      any), how often it has repeated, and whether the next spawn is forced. */
  datatype SpawnStreak = SpawnStreak(lastSpawned: int, sameTileStreak: int, forceNext: bool)

  /** The whole engine state. */
  datatype Game = Game(cells: map<Coord, Tile>, streak: SpawnStreak, manager: ManagerState)

  /** Tiles sit only in cells of the grid. */
  predicate WellFormed(cfg: Config, cells: map<Coord, Tile>) {
    forall c :: c in cells ==> InBounds(cfg.grid, c)
  }

  /** No prime tile is waiting on the board. */
  predicate NoPrime(cells: map<Coord, Tile>) {
    forall c :: c in cells ==> !cells[c].prime
  }

  /** No live tile is locked, as between moves. */
  predicate Unlocked(cells: map<Coord, Tile>) {
    forall c :: c in cells && !cells[c].prime ==> !cells[c].locked
  }

  /** The cells of the tiles in the live tile list. */
  function Listed(cells: map<Coord, Tile>): set<Coord> {
    set c | c in cells && !cells[c].prime
  }

  /** The number of live tiles: at most the number of occupied cells, and
      exactly that number when no prime tile is waiting. */
  function TileCount(cells: map<Coord, Tile>): (n: nat)
    ensures n <= |cells|
    ensures NoPrime(cells) ==> n == |cells|
  {
    assert cells.Keys == Listed(cells) + (cells.Keys - Listed(cells));
    assert NoPrime(cells) ==> Listed(cells) == cells.Keys;
    |Listed(cells)|
  }

  /** Removing a listed tile lowers the count by one; the rest of the board
      keeps its listed tiles. */
  lemma TileCountRemove(cells: map<Coord, Tile>, from: Coord, to: Coord, t: Tile)
    requires from in cells && !cells[from].prime && from != to
    requires to in cells && t.prime == cells[to].prime
    ensures TileCount((cells - {from})[to := t]) == TileCount(cells) - 1
  {
    assert Listed((cells - {from})[to := t]) == Listed(cells) - {from};
  }

  /** Sliding a tile to an empty cell keeps the count. */
  lemma TileCountRelocate(cells: map<Coord, Tile>, from: Coord, to: Coord)
    requires from in cells && to !in cells
    ensures TileCount((cells - {from})[to := cells[from]]) == TileCount(cells)
  {
    var cells' := (cells - {from})[to := cells[from]];
    if cells[from].prime {
      assert Listed(cells') == Listed(cells);
    } else {
      assert Listed(cells') == Listed(cells) - {from} + {to};
    }
  }

  /** The board after clearing: no tile in any cell, prime tiles included. */
  function ClearBoard(game: Game): (r: Game)
    ensures r.cells == map[] && TileCount(r.cells) == 0
    ensures r.streak == game.streak && r.manager == game.manager
  {
    assert Listed(map[]) == {};
    game.(cells := map[])
  }

  // ---------------------------------------------------------------------------
  // The merge rule

  /** The 2 and 3 pair, in either order. */
  predicate SpecialPair(a: int, b: int) {
    (a == 2 && b == 3) || (a == 3 && b == 2)
  }

  /** Whether the moving tile `a` may merge into the standing tile `b`: never
      into a locked tile; a 2 and a 3 always; otherwise equal numbers of at
      least 5. */
  function CanMerge(a: Tile, b: Tile): (r: bool)
    ensures b.locked ==> !r
    ensures !b.locked ==> (r <==> {a.value, b.value} == {2, 3} || (a.value == b.value && a.value >= 5))
  {
    if b.locked then false
    else if SpecialPair(a.value, b.value) then true
    else a.value >= 5 && a.value == b.value
  }

  /** The number of the merged tile: 5 for the 2 and 3 pair, double the
      standing tile otherwise. */
  function MergedValue(a: int, b: int): (r: int)
    ensures SpecialPair(a, b) || a == b ==> r == a + b
  {
    if SpecialPair(a, b) then 5 else b * 2
  }

  /** Between unlocked tiles the rule is symmetric, 2 + 2 and 3 + 3 never
      merge, and a merge produces 5 from a 2/3 pair and double the value
      otherwise. */
  lemma MergeRuleFacts(a: Tile, b: Tile)
    ensures !a.locked && !b.locked ==> CanMerge(a, b) == CanMerge(b, a)
    ensures a.value == b.value && a.value < 5 ==> !CanMerge(a, b)
    ensures CanMerge(a, b) && a.value != b.value ==> MergedValue(a.value, b.value) == 5
    ensures CanMerge(a, b) && a.value == b.value ==> MergedValue(a.value, b.value) == 2 * a.value
  {
  }
}

=== FILE: codec.dfy ===
/** Saving and restoring the board (TileBoard.cs `GetBoardJson`,
    `RestoreBoardFromJson`): the board is written as (x, y, value) triples plus
    the score, and rebuilt from them. The JSON text encoding is not modelled;
    a missing, empty or unreadable save is `None`. */
module Codec {
  import opened Options
  import opened TileGrid
  import opened SaveData
  import opened GameManager
  import opened Board

  /** The cell a saved triple names. */
  function Pos(e: TileData): Coord {
    Coord(e.x, e.y)
  }

  /** The saved triples name pairwise different cells. */
  predicate DistinctCells(es: seq<TileData>) {
    forall k, l :: 0 <= k < l < |es| ==> Pos(es[k]) != Pos(es[l])
  }

  /** The triples of the live tiles in cells `i`, `i` + 1, ... of the grid, in
      row-major order. */
  function Encode(g: Grid, cells: map<Coord, Tile>, i: int): (r: seq<TileData>)
    requires Valid(g) && 0 <= i <= Size(g)
    ensures forall k :: 0 <= k < |r| ==>
              InBounds(g, Pos(r[k])) && FlatIndex(g, Pos(r[k])) >= i && Pos(r[k]) in Listed(cells)
              && cells[Pos(r[k])].value == r[k].value
    ensures forall k, l :: 0 <= k < l < |r| ==> FlatIndex(g, Pos(r[k])) < FlatIndex(g, Pos(r[l]))
    ensures forall j :: i <= j < Size(g) && CellAt(g, j) in Listed(cells) ==>
              TileData(CellAt(g, j).x, CellAt(g, j).y, cells[CellAt(g, j)].value) in r
    decreases Size(g) - i
  {
    if i == Size(g) then []
    else
      var c := CellAt(g, i);
      CellAtInBounds(g, i);
      var here := if c in Listed(cells) then [TileData(c.x, c.y, cells[c].value)] else [];
      here + Encode(g, cells, i + 1)
  }

  /** The saved form of the board: a triple for every live tile, and the score.
      Prime tiles waiting to be destroyed are not in the live list and are not
      saved. */
  function GetBoardJson(cfg: Config, game: Game): (r: BoardState)
    requires ValidConfig(cfg)
    ensures r.score == game.manager.score
    ensures DistinctCells(r.tiles)
    ensures forall k :: 0 <= k < |r.tiles| ==>
              Pos(r.tiles[k]) in Listed(game.cells) && game.cells[Pos(r.tiles[k])].value == r.tiles[k].value
    ensures WellFormed(cfg, game.cells) ==>
              forall c :: c in Listed(game.cells) ==> TileData(c.x, c.y, game.cells[c].value) in r.tiles
  {
    var tiles := Encode(cfg.grid, game.cells, 0);
    assert WellFormed(cfg, game.cells) ==>
             forall c :: c in Listed(game.cells) ==> TileData(c.x, c.y, game.cells[c].value) in tiles by {
      if WellFormed(cfg, game.cells) {
        forall c | c in Listed(game.cells) ensures TileData(c.x, c.y, game.cells[c].value) in tiles {
          FlatIndexInBounds(cfg.grid, c);
        }
      }
    }
    BoardState(tiles, game.manager.score)
  }

  /** The cells after spawning a fresh tile for each triple in turn; a triple
      whose cell is off the grid is skipped. */
  function Place(g: Grid, es: seq<TileData>): (m: map<Coord, Tile>)
    requires Valid(g)
    ensures forall c :: c in m ==> InBounds(g, c) && !m[c].locked && !m[c].prime
    ensures forall k :: 0 <= k < |es| && InBounds(g, Pos(es[k])) ==> Pos(es[k]) in m
    ensures forall c :: c in m ==> exists k :: 0 <= k < |es| && Pos(es[k]) == c
    ensures DistinctCells(es) ==>
              forall k :: 0 <= k < |es| && InBounds(g, Pos(es[k])) ==> m[Pos(es[k])].value == es[k].value
    decreases |es|
  {
    if es == [] then map[]
    else
      var init := es[..|es| - 1];
      var m := Place(g, init);
      var e := es[|es| - 1];
      assert forall k :: 0 <= k < |init| ==> init[k] == es[k];
      if InBounds(g, Pos(e)) then m[Pos(e) := Tile(e.value, false, false)] else m
  }

  /** Restores a saved board. Nothing happens without a save; otherwise the
      board is cleared, a tile is spawned for every triple whose cell is on the
      grid, and the score is set (keeping the stored high score a maximum).
      The spawn counters and the preview are untouched. */
  function RestoreBoardFromJson(cfg: Config, game: Game, save: Option<BoardState>): (r: Game)
    requires ValidConfig(cfg)
    requires save.Some? ==> DistinctCells(save.value.tiles)
    requires save.Some? ==> forall k :: 0 <= k < |save.value.tiles| ==> save.value.tiles[k].value in cfg.table
    ensures save.None? ==> r == game
    ensures save.Some? ==> r.manager == SetScore(game.manager, save.value.score)
    ensures r.streak == game.streak
    ensures save.Some? ==> WellFormed(cfg, r.cells) && NoPrime(r.cells)
    ensures save.Some? ==> forall k :: 0 <= k < |save.value.tiles| && InBounds(cfg.grid, Pos(save.value.tiles[k])) ==>
              Pos(save.value.tiles[k]) in r.cells && r.cells[Pos(save.value.tiles[k])] == Tile(save.value.tiles[k].value, false, false)
    ensures save.Some? ==> forall c :: c in r.cells ==> exists k :: 0 <= k < |save.value.tiles| && Pos(save.value.tiles[k]) == c
  {
    match save
    case None => game
    case Some(s) =>
      var cleared := ClearBoard(game);
      cleared.(cells := Place(cfg.grid, s.tiles), manager := SetScore(cleared.manager, s.score))
  }

  /** Two boards with the same live tiles, cell for cell, save the same triples. */
  lemma {:induction false} EncodeSameListed(g: Grid, m1: map<Coord, Tile>, m2: map<Coord, Tile>, i: int)
    requires Valid(g) && 0 <= i <= Size(g)
    requires forall j :: i <= j < Size(g) ==> (CellAt(g, j) in Listed(m1) <==> CellAt(g, j) in Listed(m2))
    requires forall j :: i <= j < Size(g) && CellAt(g, j) in Listed(m1) && CellAt(g, j) in Listed(m2) ==> m1[CellAt(g, j)].value == m2[CellAt(g, j)].value
    ensures Encode(g, m1, i) == Encode(g, m2, i)
    decreases Size(g) - i
  {
    if i < Size(g) {
      EncodeSameListed(g, m1, m2, i + 1);
    }
  }

  /** The live tiles of a board, unlocked: what a restore of its save yields. */
  function LiveUnlocked(cells: map<Coord, Tile>): map<Coord, Tile> {
    map c | c in Listed(cells) :: cells[c].(locked := false)
  }

  /** Spawning the saved triples of a board rebuilds its live tiles, unlocked. */
  lemma PlaceEncoding(g: Grid, cells: map<Coord, Tile>)
    requires Valid(g) && forall c :: c in cells ==> InBounds(g, c)
    ensures Place(g, Encode(g, cells, 0)) == LiveUnlocked(cells)
  {
    var m := Place(g, Encode(g, cells, 0));
    var expected := LiveUnlocked(cells);
    forall c | c in Listed(cells) ensures c in m && m[c] == expected[c] {
      PlacedLive(g, cells, c);
    }
    forall c | c in m ensures c in Listed(cells) {
      PlacedOnlyLive(g, cells, c);
    }
    assert m.Keys == expected.Keys;
  }

  /** Every live tile is spawned back at its cell with its number, unlocked. */
  lemma PlacedLive(g: Grid, cells: map<Coord, Tile>, c: Coord)
    requires Valid(g) && forall c :: c in cells ==> InBounds(g, c)
    requires c in Listed(cells)
    ensures c in Place(g, Encode(g, cells, 0))
    ensures Place(g, Encode(g, cells, 0))[c] == cells[c].(locked := false)
  {
    var es := Encode(g, cells, 0);
    FlatIndexInBounds(g, c);
    var e := TileData(c.x, c.y, cells[c].value);
    assert e in es;
    var k :| 0 <= k < |es| && es[k] == e;
    assert Pos(es[k]) == c;
  }

  /** Only live tiles are spawned back. */
  lemma PlacedOnlyLive(g: Grid, cells: map<Coord, Tile>, c: Coord)
    requires Valid(g) && forall c :: c in cells ==> InBounds(g, c)
    requires c in Place(g, Encode(g, cells, 0))
    ensures c in Listed(cells)
  {
    MulMonotone(g.height, 0, g.width);
    var es := Encode(g, cells, 0);
    var k :| 0 <= k < |es| && Pos(es[k]) == c;
  }

  /** Restoring what was saved gives back the live tiles, unlocked, at the same
      cells with the same numbers and the same score, and saving again gives
      the same triples. The precondition on numbers is the table lookup that
      restore performs for every triple. */
  lemma SaveRestoreRoundTrip(cfg: Config, game: Game)
    requires ValidConfig(cfg) && WellFormed(cfg, game.cells)
    requires forall c :: c in Listed(game.cells) ==> game.cells[c].value in cfg.table
    ensures var s := GetBoardJson(cfg, game);
            var r := RestoreBoardFromJson(cfg, game, Some(s));
            && r.manager.score == game.manager.score
            && r.cells == LiveUnlocked(game.cells)
            && GetBoardJson(cfg, r) == s
  {
    var g := cfg.grid;
    var s := GetBoardJson(cfg, game);
    var r := RestoreBoardFromJson(cfg, game, Some(s));
    PlaceEncoding(g, game.cells);
    assert r.cells == LiveUnlocked(game.cells);
    assert Listed(r.cells) == Listed(game.cells);
    EncodeSameListed(g, r.cells, game.cells, 0);
  }

  /** The triples of a save whose cells are distinct and on the grid and whose
      numbers the table knows survive a restore and a fresh save: the same
      set of triples (in row-major order) and the same score. */
  lemma RestoreSaveRoundTrip(cfg: Config, game: Game, s: BoardState)
    requires ValidConfig(cfg) && DistinctCells(s.tiles)
    requires forall k :: 0 <= k < |s.tiles| ==> InBounds(cfg.grid, Pos(s.tiles[k])) && s.tiles[k].value in cfg.table
    ensures var saved := GetBoardJson(cfg, RestoreBoardFromJson(cfg, game, Some(s)));
            && (forall t :: t in saved.tiles <==> t in s.tiles)
            && saved.score == s.score
  {
    var r := RestoreBoardFromJson(cfg, game, Some(s));
    forall t ensures t in GetBoardJson(cfg, r).tiles <==> t in s.tiles {
      SavedTripleRestored(cfg, r, s, t);
      RestoredTripleSaved(cfg, r, s, t);
    }
  }

  /** A triple saved from a restored board was in the save it came from. */
  lemma SavedTripleRestored(cfg: Config, r: Game, s: BoardState, t: TileData)
    requires ValidConfig(cfg) && DistinctCells(s.tiles)
    requires forall k :: 0 <= k < |s.tiles| ==> InBounds(cfg.grid, Pos(s.tiles[k]))
    requires r.cells == Place(cfg.grid, s.tiles)
    ensures t in GetBoardJson(cfg, r).tiles ==> t in s.tiles
  {
    var saved := GetBoardJson(cfg, r).tiles;
    if t in saved {
      var i :| 0 <= i < |saved| && saved[i] == t;
      assert Pos(t) in r.cells && r.cells[Pos(t)].value == t.value;
      var k :| 0 <= k < |s.tiles| && Pos(s.tiles[k]) == Pos(t);
      assert s.tiles[k] == t;
    }
  }

  /** A triple of the save is saved again from the restored board. */
  lemma RestoredTripleSaved(cfg: Config, r: Game, s: BoardState, t: TileData)
    requires ValidConfig(cfg) && DistinctCells(s.tiles)
    requires forall k :: 0 <= k < |s.tiles| ==> InBounds(cfg.grid, Pos(s.tiles[k]))
    requires r.cells == Place(cfg.grid, s.tiles)
    ensures t in s.tiles ==> t in GetBoardJson(cfg, r).tiles
  {
    if t in s.tiles {
      var k :| 0 <= k < |s.tiles| && s.tiles[k] == t;
      assert Pos(t) in r.cells && !r.cells[Pos(t)].prime;
      assert Pos(t) in Listed(r.cells);
      assert WellFormed(cfg, r.cells);
      assert TileData(Pos(t).x, Pos(t).y, r.cells[Pos(t)].value) == t;
    }
  }
}

=== FILE: grid.dfy ===
/** The grid of cells the tiles live on (TileGrid.cs): addressing, neighbours
    and the search for an empty cell.

    Coordinates follow the game: `x` is the column (growing to the right) and
    `y` the row, with row 0 at the top, so "up" lowers the row index. */
module TileGrid {
  import opened Options

  datatype Coord = Coord(x: int, y: int)

  datatype Direction = Up | Down | Left | Right

  /** The unit vector of a direction as the engine's 2-D integer vectors give it:
      up is +y, right is +x. */
  function Vector(d: Direction): Coord {
    match d
    case Up => Coord(0, 1)
    case Down => Coord(0, -1)
    case Left => Coord(-1, 0)
    case Right => Coord(1, 0)
  }

  /** The cell `k` steps from `c` in direction `d`, in row/column terms. */
  function Step(c: Coord, d: Direction, k: int): Coord {
    match d
    case Up => Coord(c.x, c.y - k)
    case Down => Coord(c.x, c.y + k)
    case Left => Coord(c.x - k, c.y)
    case Right => Coord(c.x + k, c.y)
  }

  /** A rectangular grid of `width` columns and `height` rows. */
  datatype Grid = Grid(width: int, height: int)

  predicate Valid(g: Grid) {
    g.width >= 1 && g.height >= 1
  }

  /** The number of cells. */
  function Size(g: Grid): (n: int)
    ensures Valid(g) ==> n >= g.width && n >= g.height && n >= 1
  {
    g.width * g.height
  }

  predicate InBounds(g: Grid, c: Coord) {
    0 <= c.x < g.width && 0 <= c.y < g.height
  }

  // ---------------------------------------------------------------------------
  // Layout: rows of cells and the flattened cell array

  /** The coordinates assigned to the cells at start-up: row `y`, position `x`
      of that row gets (x, y). */
  function Layout(g: Grid): seq<seq<Coord>>
    requires Valid(g)
  {
    seq(g.height, y => seq(g.width, x => Coord(x, y)))
  }

  /** Rows laid end to end: the flattened cell array, row 0 first. */
  function Flatten(rows: seq<seq<Coord>>): seq<Coord> {
    if rows == [] then [] else Flatten(rows[..|rows| - 1]) + rows[|rows| - 1]
  }

  /** The cell at position `i` of the flattened array. */
  function CellAt(g: Grid, i: int): Coord
    requires Valid(g)
  {
    Coord(i % g.width, i / g.width)
  }

  /** The position of a cell in the flattened array. */
  function FlatIndex(g: Grid, c: Coord): int {
    c.y * g.width + c.x
  }

  lemma DivModUnique(a: int, w: int, q: int, r: int)
    requires w > 0 && 0 <= r < w && a == q * w + r
    ensures a / w == q && a % w == r
  {
    var q', r' := a / w, a % w;
    assert a == q' * w + r';
    assert (q - q') * w == r' - r;
    if q - q' >= 1 {
    } else if q - q' <= -1 {
    }
  }

  /** The flattened array and the index arithmetic agree: position `i` of the
      row-major flattening holds cell (i % width, i / width). */
  lemma {:induction false} FlattenLayout(g: Grid, y: int)
    requires Valid(g) && 0 <= y <= g.height
    ensures |Flatten(Layout(g)[..y])| == y * g.width
    ensures forall i :: 0 <= i < y * g.width ==> Flatten(Layout(g)[..y])[i] == CellAt(g, i)
  {
    var rows := Layout(g)[..y];
    if y > 0 {
      FlattenLayout(g, y - 1);
      assert rows[..|rows| - 1] == Layout(g)[..y - 1];
      var prev := Flatten(Layout(g)[..y - 1]);
      var last := Layout(g)[y - 1];
      assert Flatten(rows) == prev + last;
      forall i | 0 <= i < y * g.width
        ensures Flatten(rows)[i] == CellAt(g, i)
      {
        if i >= (y - 1) * g.width {
          var x := i - (y - 1) * g.width;
          DivModUnique(i, g.width, y - 1, x);
          assert Flatten(rows)[i] == last[x];
        }
      }
    }
  }

  /** The whole layout flattened has `Size` cells, in row-major order, and the
      grid's width is recovered as size / height. */
  lemma CellsMatchLayout(g: Grid)
    requires Valid(g)
    ensures |Flatten(Layout(g))| == Size(g)
    ensures forall i :: 0 <= i < Size(g) ==> Flatten(Layout(g))[i] == CellAt(g, i)
    ensures Size(g) / g.height == g.width
  {
    FlattenLayout(g, g.height);
    assert Layout(g)[..g.height] == Layout(g);
    DivModUnique(Size(g), g.height, g.width, 0);
  }

  lemma MulMonotone(a: int, b: int, w: int)
    requires w > 0
    ensures a >= b ==> a * w >= b * w
  {
    assert a * w - b * w == (a - b) * w;
  }

  lemma CellAtInBounds(g: Grid, i: int)
    requires Valid(g) && 0 <= i < Size(g)
    ensures InBounds(g, CellAt(g, i))
    ensures FlatIndex(g, CellAt(g, i)) == i
  {
    var q, r := i / g.width, i % g.width;
    assert i == q * g.width + r && 0 <= r < g.width;
    MulMonotone(q, g.height, g.width);
    assert g.height * g.width == Size(g);
  }

  lemma FlatIndexInBounds(g: Grid, c: Coord)
    requires Valid(g) && InBounds(g, c)
    ensures 0 <= FlatIndex(g, c) < Size(g)
    ensures CellAt(g, FlatIndex(g, c)) == c
  {
    DivModUnique(FlatIndex(g, c), g.width, c.y, c.x);
    MulMonotone(g.height - 1, c.y, g.width);
    assert (g.height - 1) * g.width + g.width == Size(g);
  }

  // ---------------------------------------------------------------------------
  // Lookup and neighbours

  /** The cell at (x, y), or nothing when the coordinates are off the grid. */
  function GetCell(g: Grid, x: int, y: int): (r: Option<Coord>)
    requires Valid(g)
    ensures r.Some? <==> InBounds(g, Coord(x, y))
    ensures r.Some? ==> r.value == Coord(x, y)
  {
    if x >= 0 && x < g.width && y >= 0 && y < g.height then Some(Layout(g)[y][x]) else None
  }

  /** The neighbour of `c` in direction `d`: the vector's x is added and its y
      subtracted, so that moving up lowers the row index. Nothing past an edge. */
  function Adjacent(g: Grid, c: Coord, d: Direction): (r: Option<Coord>)
    requires Valid(g)
    ensures r.Some? <==> InBounds(g, Step(c, d, 1))
    ensures r.Some? ==> r.value == Step(c, d, 1)
  {
    var v := Vector(d);
    GetCell(g, c.x + v.x, c.y - v.y)
  }

  /** Moving up from row y lands on row y - 1 of the same column; from the top
      row there is no neighbour above. */
  lemma UpLowersRow(g: Grid, c: Coord)
    requires Valid(g) && InBounds(g, c)
    ensures c.y == 0 ==> Adjacent(g, c, Up) == None
    ensures c.y > 0 ==> Adjacent(g, c, Up) == Some(Coord(c.x, c.y - 1))
    ensures c.y == g.height - 1 ==> Adjacent(g, c, Down) == None
    ensures c.y < g.height - 1 ==> Adjacent(g, c, Down) == Some(Coord(c.x, c.y + 1))
  {
  }

  /** How many steps `c` is from the edge that direction `d` moves towards. */
  function EdgeDistance(g: Grid, c: Coord, d: Direction): int {
    match d
    case Up => c.y
    case Down => g.height - 1 - c.y
    case Left => c.x
    case Right => g.width - 1 - c.x
  }

  /** The number of empty cells a tile at `c` can slide over in direction `d`:
      the walk stops before the first occupied cell or the grid edge. */
  function Reach(g: Grid, occupied: set<Coord>, c: Coord, d: Direction): (k: nat)
    requires Valid(g) && InBounds(g, c)
    ensures k <= EdgeDistance(g, c, d)
    ensures forall j :: 1 <= j <= k ==> InBounds(g, Step(c, d, j)) && Step(c, d, j) !in occupied
    ensures !InBounds(g, Step(c, d, k + 1)) || Step(c, d, k + 1) in occupied
    decreases EdgeDistance(g, c, d)
  {
    match Adjacent(g, c, d)
    case None => 0
    case Some(n) =>
      if n in occupied then 0
      else
        var k := Reach(g, occupied, n, d);
        assert forall j :: Step(c, d, j) == Step(n, d, j - 1);
        1 + k
  }

  /** The reach is the one `k` whose first `k` cells are free and whose next
      cell is blocked. */
  lemma ReachUnique(g: Grid, occupied: set<Coord>, c: Coord, d: Direction, k: int)
    requires Valid(g) && InBounds(g, c) && k >= 0
    requires forall j :: 1 <= j <= k ==> InBounds(g, Step(c, d, j)) && Step(c, d, j) !in occupied
    requires !InBounds(g, Step(c, d, k + 1)) || Step(c, d, k + 1) in occupied
    ensures Reach(g, occupied, c, d) == k
  {
    var r := Reach(g, occupied, c, d);
    assert r >= k;  // else cell r + 1 would be both free and blocked
    assert r <= k;  // else cell k + 1 would be both free and blocked
  }

  // ---------------------------------------------------------------------------
  // Search for an empty cell

  /** The cell looked at by the `i`-th probe from start index `start`: the
      index runs forward and wraps to 0 past the last cell. */
  function ProbeCell(g: Grid, start: int, i: int): Coord
    requires Valid(g)
  {
    CellAt(g, (start + i) % Size(g))
  }

  /** The number of probes that find only occupied cells, counting from probe
      `k`: the offset of the first unoccupied cell, or `Size(g)` when none. */
  function ProbeOffset(g: Grid, occupied: set<Coord>, start: int, k: int): (j: int)
    requires Valid(g) && 0 <= start < Size(g) && 0 <= k <= Size(g)
    ensures k <= j <= Size(g)
    ensures forall i :: k <= i < j ==> ProbeCell(g, start, i) in occupied
    ensures j < Size(g) ==> ProbeCell(g, start, j) !in occupied
    decreases Size(g) - k
  {
    if k == Size(g) then Size(g)
    else if ProbeCell(g, start, k) !in occupied then k
    else ProbeOffset(g, occupied, start, k + 1)
  }

  /** Every cell of the grid is occupied. */
  predicate Full(g: Grid, occupied: set<Coord>)
    requires Valid(g)
  {
    forall i :: 0 <= i < Size(g) ==> CellAt(g, i) in occupied
  }

  /** Every cell of the grid is the target of some probe. */
  lemma ProbesCoverGrid(g: Grid, start: int, i: int) returns (o: int)
    requires Valid(g) && 0 <= start < Size(g) && 0 <= i < Size(g)
    ensures 0 <= o < Size(g) && ProbeCell(g, start, o) == CellAt(g, i)
  {
    o := if i >= start then i - start else i - start + Size(g);
    DivModUnique(start + o, Size(g), if i >= start then 0 else 1, i);
  }

  /** Linear probing for an empty cell from a random start index `start`
      (the draw from [0, size)): the first unoccupied cell at or cyclically after
      `start`, after at most `Size(g)` probes; nothing when every cell is taken.
      The choice is not uniform: a free cell after a run of occupied ones is
      picked by every start in that run. */
  function GetRandomEmptyCell(g: Grid, occupied: set<Coord>, start: int): (r: Option<Coord>)
    requires Valid(g) && 0 <= start < Size(g)
    ensures r.None? <==> Full(g, occupied)
    ensures r.Some? ==> InBounds(g, r.value) && r.value !in occupied
    ensures r.Some? ==> exists j :: 0 <= j < Size(g) && ProbeCell(g, start, j) == r.value
                                    && forall i :: 0 <= i < j ==> ProbeCell(g, start, i) in occupied
  {
    var j := ProbeOffset(g, occupied, start, 0);
    if j == Size(g) then
      assert Full(g, occupied) by {
        forall i | 0 <= i < Size(g) ensures CellAt(g, i) in occupied {
          var o := ProbesCoverGrid(g, start, i);
        }
      }
      None
    else
      CellAtInBounds(g, (start + j) % Size(g));
      assert CellAt(g, (start + j) % Size(g)) !in occupied;
      Some(ProbeCell(g, start, j))
  }

  /** On a grid with exactly one free cell, the search finds that cell whatever
      the start index. */
  lemma OneEmptyCellIsFound(g: Grid, occupied: set<Coord>, e: Coord, start: int)
    requires Valid(g) && 0 <= start < Size(g)
    requires InBounds(g, e) && e !in occupied
    requires forall i :: 0 <= i < Size(g) && CellAt(g, i) != e ==> CellAt(g, i) in occupied
    ensures GetRandomEmptyCell(g, occupied, start) == Some(e)
  {
    FlatIndexInBounds(g, e);
    var r := GetRandomEmptyCell(g, occupied, start);
    assert r.Some?;
    var j := ProbeOffset(g, occupied, start, 0);
    var i := (start + j) % Size(g);
    assert r.value == CellAt(g, i);
  }

  // ---------------------------------------------------------------------------
  // Counting cells

  /** The first `n` cells of the flattened array. */
  function FirstCells(g: Grid, n: int): set<Coord>
    requires Valid(g)
  {
    set i | 0 <= i < n :: CellAt(g, i)
  }

  lemma {:induction false} FirstCellsCount(g: Grid, n: int)
    requires Valid(g) && 0 <= n <= Size(g)
    ensures |FirstCells(g, n)| == n
  {
    if n > 0 {
      FirstCellsCount(g, n - 1);
      assert FirstCells(g, n) == FirstCells(g, n - 1) + {CellAt(g, n - 1)};
      CellAtInBounds(g, n - 1);
      if CellAt(g, n - 1) in FirstCells(g, n - 1) {
        var i :| 0 <= i < n - 1 && CellAt(g, i) == CellAt(g, n - 1);
        CellAtInBounds(g, i);
        assert false;
      }
    }
  }

  /** Every in-bounds set has at most `Size(g)` cells, and a set of exactly that
      many in-bounds cells covers the whole grid. */
  lemma CountInBounds(g: Grid, s: set<Coord>)
    requires Valid(g)
    requires forall c :: c in s ==> InBounds(g, c)
    ensures |s| <= Size(g)
    ensures |s| == Size(g) ==> Full(g, s)
    ensures |s| < Size(g) ==> !Full(g, s)
  {
    var all := FirstCells(g, Size(g));
    FirstCellsCount(g, Size(g));
    assert s <= all by {
      forall c | c in s ensures c in all {
        FlatIndexInBounds(g, c);
      }
    }
    assert |all| == |s| + |all - s| by {
      assert all == s + (all - s);
    }
    if |s| == Size(g) {
      assert all - s == {};
      forall i | 0 <= i < Size(g) ensures CellAt(g, i) in s {
        assert CellAt(g, i) in all;
      }
    }
    if Full(g, s) {
      assert all <= s by {
        forall c | c in all ensures c in s {
          var i :| 0 <= i < Size(g) && CellAt(g, i) == c;
        }
      }
      assert all - s == {};
    }
  }
}

=== FILE: manager.dfy ===
/** The game manager's state (GameManager.cs): the score, the stored high
    score, the highest tile ever made, the next-tile preview with its
    anti-streak counter, and the one-level undo snapshot.

    The stored high score and the highest tile are player preferences in the
    game; here they are plain fields. The preview's random draw (a uniform
    value in [0, 1]) is passed in. */
module GameManager {
  import opened Options
  import opened SaveData

  datatype ManagerState = ManagerState(
    score: int,
    hiscore: int,              // the stored high score
    highestTile: int,          // the largest tile value ever produced
    nextTile: int,             // the previewed number of the next tile
    sameNextTileStreak: int,   // how often the preview has repeated
    lastBoard: Option<BoardState>,  // undo snapshot, none before the first move
    lastScore: int,            // score at the time of the undo snapshot
    specialTileMode: bool)     // whether prime tiles may spawn

  /** The other of the two small numbers: 3 after a 2, and 2 after anything else. */
  function Other(n: int): (r: int)
    ensures r == 2 || r == 3
    ensures r != n
    ensures n == 2 || n == 3 ==> {n, r} == {2, 3}
  {
    if n == 2 then 3 else 2
  }

  // ---------------------------------------------------------------------------
  // Score and high score

  /** Stores the score as the high score when it beats the stored one. */
  function SaveHiscore(m: ManagerState): (r: ManagerState)
    ensures r.hiscore >= m.hiscore && r.hiscore >= m.score
    ensures r.hiscore == m.hiscore || r.hiscore == m.score
    ensures r == m.(hiscore := r.hiscore)
  {
    if m.score > m.hiscore then m.(hiscore := m.score) else m
  }

  /** Sets the score and keeps the stored high score at the maximum seen. */
  function SetScore(m: ManagerState, score: int): (r: ManagerState)
    ensures r.score == score
    ensures r.hiscore >= m.hiscore && r.hiscore >= score
    ensures r.hiscore == m.hiscore || r.hiscore == score
    ensures r == m.(score := score, hiscore := r.hiscore)
  {
    SaveHiscore(m.(score := score))
  }

  /** Adds `points` to the score. */
  function IncreaseScore(m: ManagerState, points: int): (r: ManagerState)
    ensures r.score == m.score + points
    ensures r.hiscore >= m.hiscore && r.hiscore >= r.score
    ensures r.hiscore == m.hiscore || r.hiscore == r.score
    ensures r == m.(score := r.score, hiscore := r.hiscore)
  {
    SetScore(m, m.score + points)
  }

  /** The state after setting the score to each of `scores` in turn. */
  function SetScores(m: ManagerState, scores: seq<int>): ManagerState
    decreases |scores|
  {
    if scores == [] then m else SetScores(SetScore(m, scores[0]), scores[1..])
  }

  /** The larger of `h` and every element of `scores`. */
  function Highest(h: int, scores: seq<int>): (r: int)
    ensures r >= h && forall i :: 0 <= i < |scores| ==> r >= scores[i]
    decreases |scores|
  {
    if scores == [] then h else Highest(if scores[0] > h then scores[0] else h, scores[1..])
  }

  /** The stored high score is a running maximum: after any sequence of score
      updates it is the largest of its old value and every score set. */
  lemma {:induction false} HiscoreIsRunningMaximum(m: ManagerState, scores: seq<int>)
    ensures SetScores(m, scores).hiscore == Highest(m.hiscore, scores)
    ensures SetScores(m, scores).hiscore >= m.hiscore
    decreases |scores|
  {
    if scores != [] {
      var m' := SetScore(m, scores[0]);
      HiscoreIsRunningMaximum(m', scores[1..]);
    }
  }

  // ---------------------------------------------------------------------------
  // Next-tile preview

  /** Prepares the next previewed number. After two repeats the preview is
      forced to the other number and the streak restarts at 0; otherwise the
      draw picks 2 (below one half) or 3, and a repeat extends the streak while
      a new number starts it at 1. */
  function PrepareNextTile(m: ManagerState, draw: real): (r: ManagerState)
    ensures r.nextTile == 2 || r.nextTile == 3
    ensures m.sameNextTileStreak >= 2 ==> r.nextTile != m.nextTile && r.sameNextTileStreak == 0
    ensures m.sameNextTileStreak < 2 ==> r.nextTile == (if draw < 0.5 then 2 else 3)
    ensures r.nextTile == m.nextTile ==> m.sameNextTileStreak < 2 && r.sameNextTileStreak == m.sameNextTileStreak + 1
    ensures m.sameNextTileStreak < 2 && r.nextTile != m.nextTile ==> r.sameNextTileStreak == 1
    ensures 0 <= m.sameNextTileStreak <= 2 ==> 0 <= r.sameNextTileStreak <= 2
    ensures r == m.(nextTile := r.nextTile, sameNextTileStreak := r.sameNextTileStreak)
  {
    if m.sameNextTileStreak >= 2 then
      m.(nextTile := Other(m.nextTile), sameNextTileStreak := 0)
    else
      var n := if draw < 0.5 then 2 else 3;
      m.(nextTile := n,
         sameNextTileStreak := if n == m.nextTile then m.sameNextTileStreak + 1 else 1)
  }

  /** The previews shown for a sequence of draws. */
  function Previews(m: ManagerState, draws: seq<real>): (p: seq<int>)
    ensures |p| == |draws|
    decreases |draws|
  {
    if draws == [] then []
    else
      var m' := PrepareNextTile(m, draws[0]);
      [m'.nextTile] + Previews(m', draws[1..])
  }

  /** Four equal previews in a row starting at `i`. */
  predicate FourInARow(p: seq<int>, i: int)
    requires 0 <= i && i + 3 < |p|
  {
    p[i] == p[i + 1] && p[i + 1] == p[i + 2] && p[i + 2] == p[i + 3]
  }

  /** Every preview is 2 or 3, and no draws make the same preview appear four
      times in a row (three in a row can happen, since a forced flip restarts
      the streak at 0). */
  lemma {:induction false} NoFourEqualPreviews(m: ManagerState, draws: seq<real>)
    requires 0 <= m.sameNextTileStreak <= 2
    ensures forall i :: 0 <= i < |Previews(m, draws)| ==> Previews(m, draws)[i] in {2, 3}
    ensures forall i :: 0 <= i && i + 3 < |draws| ==> !FourInARow(Previews(m, draws), i)
    decreases |draws|
  {
    if draws != [] {
      var p := Previews(m, draws);
      var m1 := PrepareNextTile(m, draws[0]);
      var tail := Previews(m1, draws[1..]);
      NoFourEqualPreviews(m1, draws[1..]);
      assert p == [m1.nextTile] + tail;
      forall i | 0 <= i && i + 3 < |draws| ensures !FourInARow(p, i) {
        if i == 0 {
          var m2 := PrepareNextTile(m1, draws[1]);
          var m3 := PrepareNextTile(m2, draws[2]);
          var m4 := PrepareNextTile(m3, draws[3]);
          var t2 := Previews(m2, draws[2..]);
          assert draws[1..][1..] == draws[2..];
          assert tail == [m2.nextTile] + t2;
          var t3 := Previews(m3, draws[3..]);
          assert draws[2..][1..] == draws[3..];
          assert t2 == [m3.nextTile] + t3;
          assert t3[0] == m4.nextTile;
        } else {
          assert FourInARow(p, i) == FourInARow(tail, i - 1);
        }
      }
    }
  }

  /** A run of three equal previews does happen: a forced flip to 3 followed by
      two draws of 3. */
  lemma ThreeEqualPreviewsHappen(m: ManagerState)
    requires m.nextTile == 2 && m.sameNextTileStreak == 2
    ensures Previews(m, [0.9, 0.9, 0.9, 0.9]) == [3, 3, 3, 2]
  {
  }
}

=== FILE: moves.dfy ===
/** Move resolution (TileBoard.cs `Move`, `MoveTile`, `Merge`): the
    slide-or-merge walk of one tile, the direction-dependent visiting order,
    and the whole move with its undo snapshot. */
module Moves {
  import opened TileGrid
  import opened GameManager
  import opened Board
  import opened Codec
  import opened Options

  // ---------------------------------------------------------------------------
  // Merging two tiles

  /** The moving tile at `from` collapses into the standing tile at `to`. The
      moving tile leaves the board; the standing tile is locked and takes the
      merged number when the state table knows it, and then the score rises by
      five times that number. The highest-tile record rises to the merged
      number in any case. */
  function MergeInto(cfg: Config, game: Game, from: Coord, to: Coord): (r: Game)
    requires from in game.cells && to in game.cells && from != to
    ensures from !in r.cells && to in r.cells && r.cells.Keys == game.cells.Keys - {from}
    ensures r.cells[to].locked && r.cells[to].prime == game.cells[to].prime
    ensures forall c :: c != from && c != to ==>
              (c in r.cells <==> c in game.cells) && (c in game.cells ==> r.cells[c] == game.cells[c])
    ensures var n := MergedValue(game.cells[from].value, game.cells[to].value);
            && (n in cfg.table ==> r.cells[to].value == n && r.manager.score == game.manager.score + 5 * n)
            && (n !in cfg.table ==> r.cells[to].value == game.cells[to].value && r.manager.score == game.manager.score)
            && r.manager.highestTile == (if n > game.manager.highestTile then n else game.manager.highestTile)
    ensures r.manager.highestTile >= game.manager.highestTile && r.manager.hiscore >= game.manager.hiscore
    ensures r.manager == game.manager.(score := r.manager.score, hiscore := r.manager.hiscore,
                                       highestTile := r.manager.highestTile)
    ensures r.streak == game.streak
    ensures !game.cells[from].prime ==> TileCount(r.cells) == TileCount(game.cells) - 1
    ensures game.cells[from].prime ==> TileCount(r.cells) == TileCount(game.cells)
  {
    var a := game.cells[from];
    var b := game.cells[to];
    var n := MergedValue(a.value, b.value);
    var m := if n > game.manager.highestTile then game.manager.(highestTile := n) else game.manager;
    var known := n in cfg.table;
    var survivor := Tile(if known then n else b.value, true, b.prime);
    var cells := (game.cells - {from})[to := survivor];
    assert a.prime ==> TileCount(cells) == TileCount(game.cells) by {
      if a.prime { assert Listed(cells) == Listed(game.cells); }
    }
    assert !a.prime ==> TileCount(cells) == TileCount(game.cells) - 1 by {
      if !a.prime { TileCountRemove(game.cells, from, to, survivor); }
    }
    game.(cells := cells, manager := if known then IncreaseScore(m, n * 5) else m)
  }

  // ---------------------------------------------------------------------------
  // One tile

  /** A board with an empty cell on the grid has fewer tiles than cells. */
  lemma VacatedNotFull(cfg: Config, cells: map<Coord, Tile>, from: Coord)
    requires ValidConfig(cfg) && WellFormed(cfg, cells)
    requires InBounds(cfg.grid, from) && from !in cells
    ensures |cells| < Size(cfg.grid)
  {
    CountInBounds(cfg.grid, cells.Keys + {from});
    assert |cells.Keys + {from}| == |cells.Keys| + 1;
  }

  /** The board with the tile at `from` slid to the empty cell `to`: the tile
      is unchanged, `from` is emptied and nothing else changes. */
  function Relocate(cfg: Config, game: Game, from: Coord, to: Coord): (r: Game)
    requires ValidConfig(cfg) && WellFormed(cfg, game.cells)
    requires from in game.cells && InBounds(cfg.grid, to) && to !in game.cells
    ensures r.cells.Keys == game.cells.Keys - {from} + {to} && r.cells[to] == game.cells[from]
    ensures forall c :: c in game.cells && c != from ==> r.cells[c] == game.cells[c]
    ensures WellFormed(cfg, r.cells)
    ensures NoPrime(game.cells) ==> NoPrime(r.cells)
    ensures TileCount(r.cells) == TileCount(game.cells) && |r.cells| == |game.cells|
    ensures |r.cells| < Size(cfg.grid)
    ensures r.streak == game.streak && r.manager == game.manager
  {
    var cells := (game.cells - {from})[to := game.cells[from]];
    TileCountRelocate(game.cells, from, to);
    assert cells.Keys == game.cells.Keys - {from} + {to};
    assert |cells.Keys| == |game.cells.Keys|;
    VacatedNotFull(cfg, cells, from);
    game.(cells := cells)
  }

  /** Where a tile's walk ends: it stays, slides to an empty cell, or merges
      into a tile. */
  datatype Outcome = Stay | SlideTo(to: Coord) | MergeWith(target: Coord)

  /** Walks the tile at `from` in direction `d` over empty cells. If the walk
      stops at a tile it can merge with, it merges; otherwise it settles in the
      last empty cell reached, if any. */
  function Walk(cfg: Config, cells: map<Coord, Tile>, from: Coord, d: Direction): (o: Outcome)
    requires ValidConfig(cfg) && WellFormed(cfg, cells) && from in cells
    ensures o.SlideTo? ==> InBounds(cfg.grid, o.to) && o.to !in cells
    ensures o.MergeWith? ==> o.target in cells && o.target != from
    ensures var k := Reach(cfg.grid, cells.Keys, from, d);
            && (o.MergeWith? <==> MergesAfter(cfg, cells, from, d, k))
            && (o.MergeWith? ==> o.target == Step(from, d, k + 1))
            && (o.SlideTo? <==> SlidesTo(cfg, cells, from, d, k))
            && (o.SlideTo? ==> o.to == Step(from, d, k))
            && (o.Stay? <==> Stuck(cfg, cells, from, d))
  {
    var g := cfg.grid;
    var k := Reach(g, cells.Keys, from, d);
    var next := Step(from, d, k + 1);
    if InBounds(g, next) && next in cells && CanMerge(cells[from], cells[next]) then MergeWith(next)
    else if k > 0 then SlideTo(Step(from, d, k))
    else Stay
  }

  /** Moves the tile at `from` as far as its walk goes, merging at the end when
      it meets a tile it may merge into. Returns whether anything happened. */
  function MoveTile(cfg: Config, game: Game, from: Coord, d: Direction): (r: (Game, bool))
    requires ValidConfig(cfg) && WellFormed(cfg, game.cells)
    requires from in game.cells
    ensures !r.1 <==> r.0 == game
    ensures r.1 ==> from !in r.0.cells
    ensures forall c :: c in game.cells && c != from ==> c in r.0.cells
    ensures WellFormed(cfg, r.0.cells)
    ensures NoPrime(game.cells) ==> NoPrime(r.0.cells)
    ensures TileCount(r.0.cells) <= TileCount(game.cells)
    ensures r.0.streak == game.streak
    ensures |r.0.cells| <= |game.cells|
    ensures r.1 ==> |r.0.cells| < Size(cfg.grid)
    ensures r.0.manager.highestTile >= game.manager.highestTile && r.0.manager.hiscore >= game.manager.hiscore
    ensures r.0.manager == game.manager.(score := r.0.manager.score, hiscore := r.0.manager.hiscore,
                                         highestTile := r.0.manager.highestTile)
  {
    match Walk(cfg, game.cells, from, d)
    case Stay => (game, false)
    case SlideTo(to) => (Relocate(cfg, game, from, to), true)
    case MergeWith(target) =>
      var r := MergeInto(cfg, game, from, target);
      assert |r.cells.Keys| == |game.cells.Keys| - 1;
      VacatedNotFull(cfg, r.cells, from);
      (r, true)
  }

  /** The cells one to `k` steps from `from` are on the grid and empty. */
  predicate PathClear(cfg: Config, cells: map<Coord, Tile>, from: Coord, d: Direction, k: int) {
    forall j :: 1 <= j <= k ==> InBounds(cfg.grid, Step(from, d, j)) && Step(from, d, j) !in cells
  }

  /** The tile can slide exactly `k` >= 1 cells: they are empty, and beyond them
      is the edge or a tile it cannot merge with. */
  predicate SlidesTo(cfg: Config, cells: map<Coord, Tile>, from: Coord, d: Direction, k: int)
    requires from in cells
  {
    && k >= 1 && PathClear(cfg, cells, from, d, k)
    && (!InBounds(cfg.grid, Step(from, d, k + 1))
        || (Step(from, d, k + 1) in cells && !CanMerge(cells[from], cells[Step(from, d, k + 1)])))
  }

  /** After `k` >= 0 empty cells the tile meets a tile it can merge with. */
  predicate MergesAfter(cfg: Config, cells: map<Coord, Tile>, from: Coord, d: Direction, k: int)
    requires from in cells
  {
    && k >= 0 && PathClear(cfg, cells, from, d, k)
    && InBounds(cfg.grid, Step(from, d, k + 1)) && Step(from, d, k + 1) in cells
    && CanMerge(cells[from], cells[Step(from, d, k + 1)])
  }

  /** The tile can go nowhere: its neighbour is the edge or a tile it cannot
      merge with. */
  predicate Stuck(cfg: Config, cells: map<Coord, Tile>, from: Coord, d: Direction)
    requires from in cells
  {
    !InBounds(cfg.grid, Step(from, d, 1))
    || (Step(from, d, 1) in cells && !CanMerge(cells[from], cells[Step(from, d, 1)]))
  }

  /** The walk covers every case: a tile is stuck, slides, or merges. */
  lemma MoveCasesExhaustive(cfg: Config, game: Game, from: Coord, d: Direction)
    requires ValidConfig(cfg) && WellFormed(cfg, game.cells) && from in game.cells
    ensures var k := Reach(cfg.grid, game.cells.Keys, from, d);
            Stuck(cfg, game.cells, from, d) || SlidesTo(cfg, game.cells, from, d, k)
            || MergesAfter(cfg, game.cells, from, d, k)
  {
  }

  /** A tile that can slide `k` cells ends in the farthest of them, and the
      move reports a change. */
  lemma MoveTileSlides(cfg: Config, game: Game, from: Coord, d: Direction, k: int)
    requires ValidConfig(cfg) && WellFormed(cfg, game.cells) && from in game.cells
    requires SlidesTo(cfg, game.cells, from, d, k)
    ensures MoveTile(cfg, game, from, d) == (Relocate(cfg, game, from, Step(from, d, k)), true)
  {
    WalkSlides(cfg, game.cells, from, d, k);
  }

  lemma WalkSlides(cfg: Config, cells: map<Coord, Tile>, from: Coord, d: Direction, k: int)
    requires ValidConfig(cfg) && WellFormed(cfg, cells) && from in cells
    requires SlidesTo(cfg, cells, from, d, k)
    ensures Walk(cfg, cells, from, d) == SlideTo(Step(from, d, k))
  {
    var g := cfg.grid;
    assert forall j :: 1 <= j <= k ==> InBounds(g, Step(from, d, j)) && Step(from, d, j) !in cells.Keys;
    assert !InBounds(g, Step(from, d, k + 1)) || Step(from, d, k + 1) in cells.Keys;
    ReachUnique(g, cells.Keys, from, d, k);
  }

  /** A tile that meets a mergeable tile after `k` empty cells merges into it. */
  lemma MoveTileMerges(cfg: Config, game: Game, from: Coord, d: Direction, k: int)
    requires ValidConfig(cfg) && WellFormed(cfg, game.cells) && from in game.cells
    requires MergesAfter(cfg, game.cells, from, d, k)
    ensures MoveTile(cfg, game, from, d) == (MergeInto(cfg, game, from, Step(from, d, k + 1)), true)
  {
    var g := cfg.grid;
    assert forall j :: 1 <= j <= k ==> InBounds(g, Step(from, d, j)) && Step(from, d, j) !in game.cells.Keys;
    ReachUnique(g, game.cells.Keys, from, d, k);
    assert Walk(cfg, game.cells, from, d) == MergeWith(Step(from, d, k + 1));
  }

  /** A stuck tile leaves the board as it was and reports no change. */
  lemma MoveTileStuck(cfg: Config, game: Game, from: Coord, d: Direction)
    requires ValidConfig(cfg) && WellFormed(cfg, game.cells) && from in game.cells
    requires Stuck(cfg, game.cells, from, d)
    ensures MoveTile(cfg, game, from, d) == (game, false)
  {
    ReachUnique(cfg.grid, game.cells.Keys, from, d, 0);
    assert Walk(cfg, game.cells, from, d) == Stay;
  }

  // ---------------------------------------------------------------------------
  // Visiting order

  /** The values taken by `v` in `for (v = start; v >= 0 && v < bound; v += inc)`. */
  function Span(start: int, inc: int, bound: int): (s: seq<int>)
    requires inc == 1 || inc == -1
    ensures forall i :: 0 <= i < |s| ==> 0 <= s[i] < bound
    ensures inc == 1 ==> forall i :: 0 <= i < |s| ==> s[i] == start + i
    ensures inc == -1 ==> forall i :: 0 <= i < |s| ==> s[i] == start - i
    ensures inc == 1 && start >= 0 ==> |s| == (if start < bound then bound - start else 0)
    ensures inc == -1 && start < bound ==> |s| == (if start >= 0 then start + 1 else 0)
    decreases if inc == 1 then bound - start else start
  {
    if 0 <= start < bound then [start] + Span(start + inc, inc, bound) else []
  }

  /** The start and step of the column loop and of the row loop for each
      direction, as the input handler passes them: moving up visits rows from
      1 downwards through the grid, moving down visits rows from height - 2
      upwards, and likewise for columns. */
  function Params(g: Grid, d: Direction): (p: (int, int, int, int))
    ensures d == Up || d == Down ==> p.0 == 0 && p.1 == 1
    ensures d == Left || d == Right ==> p.2 == 0 && p.3 == 1
    ensures d == Up || d == Down ==>
              EdgeDistance(g, Coord(0, p.2), d) == 1 && EdgeDistance(g, Coord(0, p.2 + p.3), d) == 2
    ensures d == Left || d == Right ==>
              EdgeDistance(g, Coord(p.0, 0), d) == 1 && EdgeDistance(g, Coord(p.0 + p.1, 0), d) == 2
  {
    match d
    case Up => (0, 1, 1, 1)
    case Down => (0, 1, g.height - 2, -1)
    case Left => (1, 1, 0, 1)
    case Right => (g.width - 2, -1, 0, 1)
  }

  /** Column-major nesting: for each x of `xs`, every y of `ys`. */
  function Nest(xs: seq<int>, ys: seq<int>): (o: seq<Coord>)
    ensures |o| == |xs| * |ys|
  {
    if xs == [] then []
    else seq(|ys|, j requires 0 <= j < |ys| => Coord(xs[0], ys[j])) + Nest(xs[1..], ys)
  }

  /** The loops of a move reach a cell exactly when it is on the grid and off
      the edge the move is heading for. */
  lemma VisitedCells(g: Grid, d: Direction, c: Coord)
    requires Valid(g)
    ensures c in Nest(Span(Params(g, d).0, Params(g, d).1, g.width), Span(Params(g, d).2, Params(g, d).3, g.height))
            <==> InBounds(g, c) && EdgeDistance(g, c, d) >= 1
  {
    var (sx, ix, sy, iy) := Params(g, d);
    NestMembers(Span(sx, ix, g.width), Span(sy, iy, g.height), c);
    SpanHas(sx, ix, g.width, c.x);
    SpanHas(sy, iy, g.height, c.y);
  }

  /** The values a loop counter takes. */
  lemma SpanHas(start: int, inc: int, bound: int, v: int)
    requires inc == 1 || inc == -1
    requires inc == 1 ==> start >= 0
    requires inc == -1 ==> start < bound
    ensures v in Span(start, inc, bound) <==> if inc == 1 then start <= v < bound else 0 <= v <= start
  {
    var s := Span(start, inc, bound);
    if inc == 1 && start <= v < bound {
      assert s[v - start] == v;
    } else if inc == -1 && 0 <= v <= start {
      assert s[start - v] == v;
    }
  }

  /** The cells a move visits, in order: every cell on the grid except those
      on the edge the move is heading for. */
  function Order(g: Grid, d: Direction): (o: seq<Coord>)
    requires Valid(g)
    ensures forall c :: c in o <==> InBounds(g, c) && EdgeDistance(g, c, d) >= 1
  {
    var (sx, ix, sy, iy) := Params(g, d);
    var o := Nest(Span(sx, ix, g.width), Span(sy, iy, g.height));
    assert forall c :: c in o <==> InBounds(g, c) && EdgeDistance(g, c, d) >= 1 by {
      forall c ensures c in o <==> InBounds(g, c) && EdgeDistance(g, c, d) >= 1 {
        VisitedCells(g, d, c);
      }
    }
    o
  }

  predicate Increasing(s: seq<int>) {
    forall p, q :: 0 <= p < q < |s| ==> s[p] < s[q]
  }

  predicate Decreasing(s: seq<int>) {
    forall p, q :: 0 <= p < q < |s| ==> s[p] > s[q]
  }

  lemma {:induction false} NestMembers(xs: seq<int>, ys: seq<int>, c: Coord)
    ensures c in Nest(xs, ys) <==> c.x in xs && c.y in ys
  {
    if xs != [] {
      NestMembers(xs[1..], ys, c);
      var block := seq(|ys|, j requires 0 <= j < |ys| => Coord(xs[0], ys[j]));
      assert Nest(xs, ys) == block + Nest(xs[1..], ys);
      if c.x == xs[0] && c.y in ys {
        var j :| 0 <= j < |ys| && ys[j] == c.y;
        assert block[j] == c;
      }
    }
  }

  /** Two visits in the same column come in the order of `ys`. */
  lemma {:induction false} NestSameColumn(xs: seq<int>, ys: seq<int>, i: int, j: int)
    requires Increasing(xs) || Decreasing(xs)
    requires 0 <= i < j < |Nest(xs, ys)| && Nest(xs, ys)[i].x == Nest(xs, ys)[j].x
    ensures Increasing(ys) ==> Nest(xs, ys)[i].y < Nest(xs, ys)[j].y
    ensures Decreasing(ys) ==> Nest(xs, ys)[i].y > Nest(xs, ys)[j].y
  {
    var n := |ys|;
    var rest := Nest(xs[1..], ys);
    assert Nest(xs, ys) == seq(n, k requires 0 <= k < n => Coord(xs[0], ys[k])) + rest;
    if j < n {
    } else if i < n {
      NestMembers(xs[1..], ys, rest[j - n]);
    } else {
      NestSameColumn(xs[1..], ys, i - n, j - n);
    }
  }

  /** Two visits in the same row come in the order of `xs`. */
  lemma {:induction false} NestSameRow(xs: seq<int>, ys: seq<int>, i: int, j: int)
    requires Increasing(ys) || Decreasing(ys)
    requires 0 <= i < j < |Nest(xs, ys)| && Nest(xs, ys)[i].y == Nest(xs, ys)[j].y
    ensures Increasing(xs) ==> Nest(xs, ys)[i].x < Nest(xs, ys)[j].x
    ensures Decreasing(xs) ==> Nest(xs, ys)[i].x > Nest(xs, ys)[j].x
  {
    var n := |ys|;
    var rest := Nest(xs[1..], ys);
    assert Nest(xs, ys) == seq(n, k requires 0 <= k < n => Coord(xs[0], ys[k])) + rest;
    if j < n {
    } else if i < n {
      NestMembers(xs[1..], ys, rest[j - n]);
    } else {
      NestSameRow(xs[1..], ys, i - n, j - n);
    }
  }

  /** The same line as the move: the same column for up and down, the same row
      for left and right. */
  predicate SameLine(a: Coord, b: Coord, d: Direction) {
    if d == Up || d == Down then a.x == b.x else a.y == b.y
  }

  /** Of two visits, the later is a different cell, and on the same line it is
      farther from the destination edge. */
  lemma VisitedInOrder(g: Grid, d: Direction, i: int, j: int)
    requires Valid(g) && 0 <= i < j < |Order(g, d)|
    ensures Order(g, d)[i] != Order(g, d)[j]
    ensures SameLine(Order(g, d)[i], Order(g, d)[j], d) ==>
              EdgeDistance(g, Order(g, d)[i], d) < EdgeDistance(g, Order(g, d)[j], d)
  {
    var (sx, ix, sy, iy) := Params(g, d);
    var xs, ys := Span(sx, ix, g.width), Span(sy, iy, g.height);
    var o := Order(g, d);
    assert o == Nest(xs, ys);
    assert ix == 1 ==> Increasing(xs);
    assert ix == -1 ==> Decreasing(xs);
    assert iy == 1 ==> Increasing(ys);
    assert iy == -1 ==> Decreasing(ys);
    if o[i].x == o[j].x {
      NestSameColumn(xs, ys, i, j);
    }
    if o[i].y == o[j].y {
      NestSameRow(xs, ys, i, j);
    }
  }

  /** A move visits every cell except those on the destination edge, each
      once, and along each line it visits the cells nearer the destination
      edge first. */
  lemma VisitOrder(g: Grid, d: Direction)
    requires Valid(g)
    ensures forall c :: c in Order(g, d) <==> InBounds(g, c) && EdgeDistance(g, c, d) >= 1
    ensures forall i, j :: 0 <= i < j < |Order(g, d)| ==> Order(g, d)[i] != Order(g, d)[j]
    ensures forall i, j :: 0 <= i < j < |Order(g, d)| && SameLine(Order(g, d)[i], Order(g, d)[j], d) ==>
              EdgeDistance(g, Order(g, d)[i], d) < EdgeDistance(g, Order(g, d)[j], d)
  {
    forall i, j | 0 <= i < j < |Order(g, d)|
      ensures Order(g, d)[i] != Order(g, d)[j]
      ensures SameLine(Order(g, d)[i], Order(g, d)[j], d) ==>
                EdgeDistance(g, Order(g, d)[i], d) < EdgeDistance(g, Order(g, d)[j], d)
    {
      VisitedInOrder(g, d, i, j);
    }
  }

  // ---------------------------------------------------------------------------
  // The whole move

  /** The sum, over the occupied cells of the grid, of their distance to the
      destination edge. A visit that changes the board lowers it. */
  function Potential(g: Grid, occupied: set<Coord>, d: Direction): int
    requires Valid(g)
  {
    PotentialUpTo(g, occupied, d, Size(g))
  }

  /** The same sum over the cells with flat index below `n`. */
  function PotentialUpTo(g: Grid, occupied: set<Coord>, d: Direction, n: nat): int
    requires Valid(g) && n <= Size(g)
  {
    if n == 0 then 0
    else
      var c := CellAt(g, n - 1);
      PotentialUpTo(g, occupied, d, n - 1) + (if c in occupied then EdgeDistance(g, c, d) else 0)
  }

  lemma {:induction false} PotentialUpToRemove(g: Grid, occupied: set<Coord>, c: Coord, d: Direction, n: nat)
    requires Valid(g) && n <= Size(g) && c in occupied && InBounds(g, c)
    ensures PotentialUpTo(g, occupied, d, n)
            == PotentialUpTo(g, occupied - {c}, d, n) + (if FlatIndex(g, c) < n then EdgeDistance(g, c, d) else 0)
  {
    if n > 0 {
      PotentialUpToRemove(g, occupied, c, d, n - 1);
      CellAtInBounds(g, n - 1);
      FlatIndexInBounds(g, c);
    }
  }

  /** Taking an occupied cell out lowers the potential by its distance. */
  lemma PotentialRemove(g: Grid, occupied: set<Coord>, c: Coord, d: Direction)
    requires Valid(g) && c in occupied && InBounds(g, c)
    ensures Potential(g, occupied, d) == EdgeDistance(g, c, d) + Potential(g, occupied - {c}, d)
  {
    FlatIndexInBounds(g, c);
    PotentialUpToRemove(g, occupied, c, d, Size(g));
  }

  /** Every cell of `before` that is empty in `after` has a cell of `after`
      further along its line towards the destination edge: no tile is lost
      without a tile ahead of it to account for it. */
  ghost predicate Ahead(before: set<Coord>, after: set<Coord>, d: Direction) {
    forall c :: c in before && c !in after ==> exists j :: 1 <= j && Step(c, d, j) in after
  }

  lemma AheadTrans(a: set<Coord>, b: set<Coord>, c: set<Coord>, d: Direction)
    requires Ahead(a, b, d) && Ahead(b, c, d)
    ensures Ahead(a, c, d)
  {
    forall x | x in a && x !in c ensures exists j :: 1 <= j && Step(x, d, j) in c {
      if x !in b {
        var j1 :| 1 <= j1 && Step(x, d, j1) in b;
        var y := Step(x, d, j1);
        if y !in c {
          var j2 :| 1 <= j2 && Step(y, d, j2) in c;
          assert Step(x, d, j1 + j2) == Step(y, d, j2);
        }
      }
    }
  }

  /** One visit keeps a tile ahead of every cell it empties: the tile lands
      `k` cells ahead, or merges into the tile `k + 1` ahead. */
  lemma VisitAhead(g: Grid, keys: set<Coord>, after: set<Coord>, p: Coord, d: Direction, k: nat)
    requires p in keys ==> VisitShape(g, keys, after, p, d, k)
    requires p !in keys ==> after == keys
    ensures Ahead(keys, after, d)
  {
    forall c | c in keys && c !in after ensures exists j :: 1 <= j && Step(c, d, j) in after {
      assert c == p;
      if after == keys - {p} + {Step(p, d, k)} {
        assert Step(c, d, k) in after;
        assert k != 0;
      } else {
        assert Step(c, d, k + 1) != p;
        assert Step(c, d, k + 1) in after;
      }
    }
  }

  /** A tile move that reports a change lowers the potential: a slide brings
      the tile `k >= 1` cells nearer the edge, and a merge removes a tile that
      was at least one cell from it. */
  lemma MoveTileLowers(cfg: Config, game: Game, p: Coord, d: Direction)
    requires ValidConfig(cfg) && WellFormed(cfg, game.cells) && p in game.cells
    ensures MoveTile(cfg, game, p, d).1 ==>
              Potential(cfg.grid, MoveTile(cfg, game, p, d).0.cells.Keys, d) < Potential(cfg.grid, game.cells.Keys, d)
  {
    var g, keys := cfg.grid, game.cells.Keys;
    var k := Reach(g, keys, p, d);
    var after := MoveTile(cfg, game, p, d).0.cells.Keys;
    match Walk(cfg, game.cells, p, d)
    case Stay =>
    case SlideTo(to) =>
      assert after == keys - {p} + {to};
      assert after - {to} == keys - {p};
      PotentialRemove(g, keys, p, d);
      PotentialRemove(g, after, to, d);
      assert EdgeDistance(g, to, d) == EdgeDistance(g, p, d) - k;
    case MergeWith(q) =>
      assert after == keys - {p};
      PotentialRemove(g, keys, p, d);
      assert EdgeDistance(g, q, d) == EdgeDistance(g, p, d) - (k + 1);
      assert EdgeDistance(g, q, d) >= 0;
  }

  /** What one visit of the loop does to the occupied cells. */
  lemma VisitKeeps(cfg: Config, game: Game, c: Coord, d: Direction)
    requires ValidConfig(cfg) && WellFormed(cfg, game.cells)
    ensures var s := if c in game.cells then MoveTile(cfg, game, c, d) else (game, false);
            && Ahead(game.cells.Keys, s.0.cells.Keys, d)
            && (s.1 ==> Potential(cfg.grid, s.0.cells.Keys, d) < Potential(cfg.grid, game.cells.Keys, d))
  {
    var keys := game.cells.Keys;
    if c in game.cells {
      var k := Reach(cfg.grid, keys, c, d);
      MoveTileKeys(cfg, game, c, d);
      VisitAhead(cfg.grid, keys, MoveTile(cfg, game, c, d).0.cells.Keys, c, d, k);
      MoveTileLowers(cfg, game, c, d);
    } else {
      VisitAhead(cfg.grid, keys, keys, c, d, 0);
    }
  }

  /** Visits `order` in turn and moves the tile in every occupied cell; the
      flag is the disjunction of the per-tile results. */
  function MoveAll(cfg: Config, game: Game, d: Direction, order: seq<Coord>): (r: (Game, bool))
    requires ValidConfig(cfg) && WellFormed(cfg, game.cells)
    ensures !r.1 ==> r.0 == game
    ensures WellFormed(cfg, r.0.cells)
    ensures NoPrime(game.cells) ==> NoPrime(r.0.cells)
    ensures TileCount(r.0.cells) <= TileCount(game.cells)
    ensures r.0.streak == game.streak
    ensures |r.0.cells| <= |game.cells|
    ensures r.1 ==> |r.0.cells| < Size(cfg.grid)
    ensures r.0.manager.highestTile >= game.manager.highestTile && r.0.manager.hiscore >= game.manager.hiscore
    ensures r.0.manager == game.manager.(score := r.0.manager.score, hiscore := r.0.manager.hiscore,
                                         highestTile := r.0.manager.highestTile)
    ensures r.1 ==> Potential(cfg.grid, r.0.cells.Keys, d) < Potential(cfg.grid, game.cells.Keys, d)
    ensures r.1 <==> r.0.cells.Keys != game.cells.Keys
    ensures Ahead(game.cells.Keys, r.0.cells.Keys, d)
    decreases |order|
  {
    if order == [] then (game, false)
    else
      var c := order[0];
      var step := if c in game.cells then MoveTile(cfg, game, c, d) else (game, false);
      var rest := MoveAll(cfg, step.0, d, order[1..]);
      VisitKeeps(cfg, game, c, d);
      FlagCombine(cfg.grid, game.cells.Keys, step.0.cells.Keys, rest.0.cells.Keys, d, step.1, rest.1);
      AheadTrans(game.cells.Keys, step.0.cells.Keys, rest.0.cells.Keys, d);
      (rest.0, step.1 || rest.1)
  }

  /** Two steps that each either leave the cells alone or lower the
      potential report a change exactly when the cells differ. */
  lemma FlagCombine(g: Grid, k0: set<Coord>, k1: set<Coord>, k2: set<Coord>, d: Direction, f1: bool, f2: bool)
    requires Valid(g)
    requires !f1 ==> k1 == k0
    requires f1 ==> Potential(g, k1, d) < Potential(g, k0, d)
    requires f2 <==> k2 != k1
    requires f2 ==> Potential(g, k2, d) < Potential(g, k1, d)
    ensures f1 || f2 ==> Potential(g, k2, d) < Potential(g, k0, d)
    ensures f1 || f2 <==> k2 != k0
  {
  }

  /** The tile at `c` has the destination edge or another tile right in front
      of it in direction `d`. */
  predicate Packed(g: Grid, occupied: set<Coord>, c: Coord, d: Direction) {
    !InBounds(g, Step(c, d, 1)) || Step(c, d, 1) in occupied
  }

  /** Every on-grid cell right behind a cell still to be visited is itself
      visited later. */
  ghost predicate BehindLater(g: Grid, rest: seq<Coord>, d: Direction) {
    forall i, c :: 0 <= i < |rest| && InBounds(g, c) && Step(c, d, 1) == rest[i] ==> c in rest[i + 1..]
  }

  /** Every tile in a cell that will not be visited again is packed. */
  predicate PackedOutside(g: Grid, occupied: set<Coord>, rest: seq<Coord>, d: Direction) {
    forall c :: c in occupied && c !in rest ==> Packed(g, occupied, c, d)
  }

  lemma BehindLaterTail(g: Grid, rest: seq<Coord>, d: Direction)
    requires rest != [] && BehindLater(g, rest, d)
    ensures BehindLater(g, rest[1..], d)
  {
    var tail := rest[1..];
    forall i, c | 0 <= i < |tail| && InBounds(g, c) && Step(c, d, 1) == tail[i]
      ensures c in tail[i + 1..]
    {
      assert tail[i] == rest[i + 1];
      assert tail[i + 1..] == rest[i + 2..];
    }
  }

  /** Emptying the visited cell `rest[0]` leaves the other settled tiles
      packed: the only cell behind it is visited later. */
  lemma VacatePacks(g: Grid, occupied: set<Coord>, after: set<Coord>, rest: seq<Coord>, d: Direction, c: Coord)
    requires rest != [] && BehindLater(g, rest, d) && PackedOutside(g, occupied, rest, d)
    requires occupied - {rest[0]} <= after
    requires c in occupied && InBounds(g, c) && c != rest[0] && c !in rest[1..]
    ensures Packed(g, after, c, d)
  {
    assert rest == [rest[0]] + rest[1..];
    assert c !in rest;
    assert Step(c, d, 1) != rest[0];
  }

  /** The visited tile cannot move: nothing changes, and it is packed itself. */
  lemma StayPacks(g: Grid, occupied: set<Coord>, rest: seq<Coord>, d: Direction)
    requires rest != [] && BehindLater(g, rest, d) && PackedOutside(g, occupied, rest, d)
    requires forall c :: c in occupied ==> InBounds(g, c)
    requires Packed(g, occupied, rest[0], d)
    ensures PackedOutside(g, occupied, rest[1..], d)
  {
    forall c | c in occupied && c !in rest[1..] ensures Packed(g, occupied, c, d) {
      if c != rest[0] {
        VacatePacks(g, occupied, occupied, rest, d, c);
      }
    }
  }

  /** The visited tile slides `k` cells and stops at the edge or at a tile. */
  lemma SlidePacks(g: Grid, occupied: set<Coord>, rest: seq<Coord>, d: Direction, k: nat)
    requires rest != [] && BehindLater(g, rest, d) && PackedOutside(g, occupied, rest, d)
    requires forall c :: c in occupied ==> InBounds(g, c)
    requires !InBounds(g, Step(rest[0], d, k + 1)) || Step(rest[0], d, k + 1) in occupied
    ensures PackedOutside(g, occupied - {rest[0]} + {Step(rest[0], d, k)}, rest[1..], d)
  {
    var p, to := rest[0], Step(rest[0], d, k);
    var after := occupied - {p} + {to};
    forall c | c in after && c !in rest[1..] ensures Packed(g, after, c, d) {
      if c == to {
        assert Step(to, d, 1) == Step(p, d, k + 1) != p;
      } else {
        VacatePacks(g, occupied, after, rest, d, c);
      }
    }
  }

  /** The visited tile merges into the tile `j` cells ahead, which keeps
      whatever was in front of it. */
  lemma MergePacks(g: Grid, occupied: set<Coord>, rest: seq<Coord>, d: Direction, j: nat)
    requires rest != [] && BehindLater(g, rest, d) && PackedOutside(g, occupied, rest, d)
    requires forall c :: c in occupied ==> InBounds(g, c)
    requires j >= 1 && Step(rest[0], d, j) in occupied
    ensures PackedOutside(g, occupied - {rest[0]}, rest[1..], d)
  {
    var p := rest[0];
    var after := occupied - {p};
    forall c | c in after && c !in rest[1..] ensures Packed(g, after, c, d) {
      if c == Step(p, d, j) {
        assert rest == [p] + rest[1..];
        assert Step(c, d, 1) == Step(p, d, j + 1) != p;
      } else {
        VacatePacks(g, occupied, after, rest, d, c);
      }
    }
  }

  /** The occupied cells after one visit: unchanged with the tile packed where
      it is, or the tile moved `k` cells to a spot with the edge or a tile in
      front, or the tile gone into a tile `k + 1` cells ahead. */
  lemma MoveTileKeys(cfg: Config, game: Game, p: Coord, d: Direction)
    requires ValidConfig(cfg) && WellFormed(cfg, game.cells) && p in game.cells
    ensures VisitShape(cfg.grid, game.cells.Keys, MoveTile(cfg, game, p, d).0.cells.Keys, p, d,
                       Reach(cfg.grid, game.cells.Keys, p, d))
  {
    var keys, k := game.cells.Keys, Reach(cfg.grid, game.cells.Keys, p, d);
    var r := MoveTile(cfg, game, p, d).0;
    match Walk(cfg, game.cells, p, d)
    case Stay =>
      assert r == game;
    case SlideTo(to) =>
      assert r.cells.Keys == keys - {p} + {Step(p, d, k)};
    case MergeWith(q) =>
      assert r.cells.Keys == keys - {p};
  }

  /** The three ways one visit at `p` can change the occupied cells. */
  predicate VisitShape(g: Grid, keys: set<Coord>, after: set<Coord>, p: Coord, d: Direction, k: nat) {
    || (after == keys && Packed(g, keys, p, d))
    || (after == keys - {p} + {Step(p, d, k)} && (!InBounds(g, Step(p, d, k + 1)) || Step(p, d, k + 1) in keys))
    || (after == keys - {p} && Step(p, d, k + 1) in keys)
  }

  /** One visit keeps every tile outside the remaining visits packed. */
  lemma VisitPacks(g: Grid, keys: set<Coord>, after: set<Coord>, rest: seq<Coord>, d: Direction, k: nat)
    requires rest != [] && BehindLater(g, rest, d) && PackedOutside(g, keys, rest, d)
    requires forall c :: c in keys ==> InBounds(g, c)
    requires rest[0] in keys ==> VisitShape(g, keys, after, rest[0], d, k)
    requires rest[0] !in keys ==> after == keys
    ensures PackedOutside(g, after, rest[1..], d)
  {
    var p := rest[0];
    if p !in keys {
      forall c | c in keys && c !in rest[1..] ensures Packed(g, keys, c, d) {
        VacatePacks(g, keys, keys, rest, d, c);
      }
    } else if after == keys && Packed(g, keys, p, d) {
      StayPacks(g, keys, rest, d);
    } else if after == keys - {p} + {Step(p, d, k)} && (!InBounds(g, Step(p, d, k + 1)) || Step(p, d, k + 1) in keys) {
      SlidePacks(g, keys, rest, d, k);
    } else {
      MergePacks(g, keys, rest, d, k + 1);
    }
  }

  /** Visiting `rest` in turn, with every cell behind a pending visit visited
      later, leaves every tile packed. */
  lemma {:induction false} MoveAllPacks(cfg: Config, game: Game, d: Direction, rest: seq<Coord>)
    requires ValidConfig(cfg) && WellFormed(cfg, game.cells)
    requires BehindLater(cfg.grid, rest, d) && PackedOutside(cfg.grid, game.cells.Keys, rest, d)
    ensures PackedOutside(cfg.grid, MoveAll(cfg, game, d, rest).0.cells.Keys, [], d)
    decreases |rest|
  {
    if rest != [] {
      var c := rest[0];
      var step := if c in game.cells then MoveTile(cfg, game, c, d) else (game, false);
      var k := 0;
      if c in game.cells {
        k := Reach(cfg.grid, game.cells.Keys, c, d);
        MoveTileKeys(cfg, game, c, d);
      }
      VisitPacks(cfg.grid, game.cells.Keys, step.0.cells.Keys, rest, d, k);
      BehindLaterTail(cfg.grid, rest, d);
      MoveAllPacks(cfg, step.0, d, rest[1..]);
    }
  }

  /** The move order puts every cell after the cell in front of it, and every
      tile it does not visit lies on the destination edge. */
  lemma OrderPacks(g: Grid, occupied: set<Coord>, d: Direction)
    requires Valid(g) && forall c :: c in occupied ==> InBounds(g, c)
    ensures BehindLater(g, Order(g, d), d)
    ensures PackedOutside(g, occupied, Order(g, d), d)
  {
    var o := Order(g, d);
    forall i, c | 0 <= i < |o| && InBounds(g, c) && Step(c, d, 1) == o[i]
      ensures c in o[i + 1..]
    {
      assert o[i] in o;
      assert EdgeDistance(g, c, d) == EdgeDistance(g, o[i], d) + 1;
      var k :| 0 <= k < |o| && o[k] == c;
      if k < i {
        VisitedInOrder(g, d, k, i);
        assert SameLine(c, o[i], d);
      } else {
        assert k != i;
        assert o[i + 1..][k - i - 1] == c;
      }
    }
  }

  /** The game with the undo snapshot taken: the saved board and the score
      before the move. */
  function Snapshot(cfg: Config, game: Game): (r: Game)
    requires ValidConfig(cfg)
    ensures r.cells == game.cells && r.streak == game.streak
    ensures r.manager == game.manager.(lastBoard := Some(GetBoardJson(cfg, game)), lastScore := game.manager.score)
  {
    game.(manager := game.manager.(lastBoard := Some(GetBoardJson(cfg, game)), lastScore := game.manager.score))
  }

  /** A move in direction `d`: the undo snapshot is taken first, then every
      cell is visited in the direction's order. */
  function Move(cfg: Config, game: Game, d: Direction): (r: (Game, bool))
    requires ValidConfig(cfg) && WellFormed(cfg, game.cells)
    ensures r.0.manager.lastBoard == Some(GetBoardJson(cfg, game))
    ensures r.0.manager.lastScore == game.manager.score
    ensures !r.1 ==> r.0.cells == game.cells && r.0.manager.score == game.manager.score
    ensures WellFormed(cfg, r.0.cells)
    ensures NoPrime(game.cells) ==> NoPrime(r.0.cells)
    ensures TileCount(r.0.cells) <= TileCount(game.cells)
    ensures |r.0.cells| <= |game.cells|
    ensures r.1 ==> |r.0.cells| < Size(cfg.grid) && !Full(cfg.grid, r.0.cells.Keys)
    ensures r.0.streak == game.streak
    ensures r.0.manager.highestTile >= game.manager.highestTile && r.0.manager.hiscore >= game.manager.hiscore
    ensures r.0.manager.nextTile == game.manager.nextTile
    ensures r.0.manager.specialTileMode == game.manager.specialTileMode
    ensures forall c :: c in r.0.cells ==> !InBounds(cfg.grid, Step(c, d, 1)) || Step(c, d, 1) in r.0.cells
    ensures r.1 <==> r.0.cells.Keys != game.cells.Keys
    ensures Ahead(game.cells.Keys, r.0.cells.Keys, d)
  {
    var r := MoveAll(cfg, Snapshot(cfg, game), d, Order(cfg.grid, d));
    CountInBounds(cfg.grid, r.0.cells.Keys);
    OrderPacks(cfg.grid, game.cells.Keys, d);
    MoveAllPacks(cfg, Snapshot(cfg, game), d, Order(cfg.grid, d));
    r
  }

  /** In a single column of four, the 2 in row 1 slides to row 0. */
  lemma ColumnSlideStep(cfg: Config, game: Game)
    requires ValidConfig(cfg) && cfg.grid == Grid(1, 4)
    requires game.cells == map[Coord(0, 1) := Tile(2, false, false), Coord(0, 2) := Tile(3, false, false)]
    ensures MoveTile(cfg, game, Coord(0, 1), Up) ==
              (game.(cells := map[Coord(0, 0) := Tile(2, false, false), Coord(0, 2) := Tile(3, false, false)]), true)
  {
    assert Step(Coord(0, 1), Up, 1) == Coord(0, 0);
    assert PathClear(cfg, game.cells, Coord(0, 1), Up, 1);
    assert !InBounds(cfg.grid, Step(Coord(0, 1), Up, 2));
    MoveTileSlides(cfg, game, Coord(0, 1), Up, 1);
    ColumnRelocate(cfg, game);
  }

  /** The slide of that 2 to row 0, as a board. */
  lemma ColumnRelocate(cfg: Config, game: Game)
    requires ValidConfig(cfg) && cfg.grid == Grid(1, 4)
    requires game.cells == map[Coord(0, 1) := Tile(2, false, false), Coord(0, 2) := Tile(3, false, false)]
    ensures Relocate(cfg, game, Coord(0, 1), Coord(0, 0)).cells ==
              map[Coord(0, 0) := Tile(2, false, false), Coord(0, 2) := Tile(3, false, false)]
  {
    var r := Relocate(cfg, game, Coord(0, 1), Coord(0, 0));
    assert r.cells.Keys == {Coord(0, 0), Coord(0, 2)};
  }

  /** Then the 3 in row 2 slides up and merges into the 2, giving a locked 5. */
  lemma ColumnMergeStep(cfg: Config, game: Game)
    requires ValidConfig(cfg) && cfg.grid == Grid(1, 4)
    requires game.cells == map[Coord(0, 0) := Tile(2, false, false), Coord(0, 2) := Tile(3, false, false)]
    ensures MoveTile(cfg, game, Coord(0, 2), Up).0.cells == map[Coord(0, 0) := Tile(5, true, false)]
    ensures MoveTile(cfg, game, Coord(0, 2), Up).0.manager.score == game.manager.score + 25
  {
    ColumnMergesAfter(cfg, game);
    MoveTileMerges(cfg, game, Coord(0, 2), Up, 1);
    var r := MergeInto(cfg, game, Coord(0, 2), Coord(0, 0));
    assert MergedValue(3, 2) == 5;
    assert r.cells == map[Coord(0, 0) := Tile(5, true, false)] by {
      assert r.cells.Keys == {Coord(0, 0)};
    }
  }

  /** The 3 in row 2 has a free cell and then the 2 ahead of it. */
  lemma ColumnMergesAfter(cfg: Config, game: Game)
    requires ValidConfig(cfg) && cfg.grid == Grid(1, 4)
    requires game.cells == map[Coord(0, 0) := Tile(2, false, false), Coord(0, 2) := Tile(3, false, false)]
    ensures Coord(0, 2) in game.cells && MergesAfter(cfg, game.cells, Coord(0, 2), Up, 1)
  {
    assert Step(Coord(0, 2), Up, 1) == Coord(0, 1);
    assert Step(Coord(0, 2), Up, 2) == Coord(0, 0);
  }

  /** Visiting rows 1, 2 and 3 of that column performs the slide and then the
      merge. */
  lemma ColumnVisit(cfg: Config, game: Game)
    requires ValidConfig(cfg) && cfg.grid == Grid(1, 4)
    requires game.cells == map[Coord(0, 1) := Tile(2, false, false), Coord(0, 2) := Tile(3, false, false)]
    ensures var r := MoveAll(cfg, game, Up, [Coord(0, 1), Coord(0, 2), Coord(0, 3)]);
            r.1 && r.0.cells == map[Coord(0, 0) := Tile(5, true, false)] && r.0.manager.score == game.manager.score + 25
  {
    var order := [Coord(0, 1), Coord(0, 2), Coord(0, 3)];
    ColumnSlideStep(cfg, game);
    var g1 := MoveTile(cfg, game, Coord(0, 1), Up).0;
    ColumnVisitRest(cfg, g1);
    assert order[1..] == [Coord(0, 2), Coord(0, 3)];
  }

  /** Visiting rows 2 and 3 after the slide performs the merge. */
  lemma ColumnVisitRest(cfg: Config, game: Game)
    requires ValidConfig(cfg) && cfg.grid == Grid(1, 4)
    requires game.cells == map[Coord(0, 0) := Tile(2, false, false), Coord(0, 2) := Tile(3, false, false)]
    ensures var r := MoveAll(cfg, game, Up, [Coord(0, 2), Coord(0, 3)]);
            r.1 && r.0.cells == map[Coord(0, 0) := Tile(5, true, false)] && r.0.manager.score == game.manager.score + 25
  {
    ColumnMergeStep(cfg, game);
    var g2 := MoveTile(cfg, game, Coord(0, 2), Up).0;
    assert Coord(0, 3) !in g2.cells;
    assert [Coord(0, 2), Coord(0, 3)][1..] == [Coord(0, 3)];
    assert MoveAll(cfg, g2, Up, [Coord(0, 3)]) == (g2, false);
  }

  /** In a single column of four with a 2 in row 1 and a 3 in row 2, moving up
      slides the 2 to the top and merges the 3 into it: one locked 5 remains in
      row 0 and the score rises by 25. */
  lemma SingleColumnUp(cfg: Config, game: Game)
    requires ValidConfig(cfg) && cfg.grid == Grid(1, 4)
    requires game.cells == map[Coord(0, 1) := Tile(2, false, false), Coord(0, 2) := Tile(3, false, false)]
    ensures Move(cfg, game, Up).1
    ensures Move(cfg, game, Up).0.cells == map[Coord(0, 0) := Tile(5, true, false)]
    ensures Move(cfg, game, Up).0.manager.score == game.manager.score + 25
  {
    var g := cfg.grid;
    assert Span(0, 1, 1) == [0];
    assert Span(1, 1, 4) == [1, 2, 3];
    assert Order(g, Up) == [Coord(0, 1), Coord(0, 2), Coord(0, 3)];
    ColumnVisit(cfg, Snapshot(cfg, game));
  }
}

=== FILE: options.dfy ===
/** The optional value used wherever the game returns a possibly-null reference. */
module Options {

  datatype Option<+T> = None | Some(value: T)
}

=== FILE: savedata.dfy ===
/** The saved form of a board: the triples written for save, restore and undo. */
module SaveData {

  /** One saved tile: its cell coordinates and its number. */
  datatype TileData = TileData(x: int, y: int, value: int)

  /** A saved board: the tiles and the score at the time of saving. */
  datatype BoardState = BoardState(tiles: seq<TileData>, score: int)
}

=== FILE: session.dfy ===
/** Starting a game (GameManager.cs `NewGame`): the score is reset, the
    board cleared and seeded with one 2, one 3 and one 5, and the first
    preview drawn. The screens and buttons it toggles are not modelled. */
module Session {
  import opened TileGrid
  import opened GameManager
  import opened Board
  import opened Spawning

  /** The numbers shown on the board. */
  function Values(cells: map<Coord, Tile>): set<int> {
    set c | c in cells :: cells[c].value
  }

  /** A board with fewer tiles than cells has an empty cell. */
  lemma RoomLeft(cfg: Config, cells: map<Coord, Tile>)
    requires ValidConfig(cfg) && WellFormed(cfg, cells) && |cells| < Size(cfg.grid)
    ensures !Full(cfg.grid, cells.Keys)
  {
    CountInBounds(cfg.grid, cells.Keys);
  }

  /** Spawning a known number adds it to the numbers shown. */
  lemma SpawnShows(cfg: Config, game: Game, start: int, number: int)
    requires ValidConfig(cfg) && WellFormed(cfg, game.cells)
    requires 0 <= start < Size(cfg.grid) && !Full(cfg.grid, game.cells.Keys)
    requires number in cfg.table
    ensures Values(CreateSpecificTile(cfg, game, start, number).cells) == Values(game.cells) + {number}
  {
    var r := CreateSpecificTile(cfg, game, start, number);
    var c := GetRandomEmptyCell(cfg.grid, game.cells.Keys, start).value;
    ValuesAdd(game.cells, c, Tile(number, false, false));
  }

  lemma ValuesAdd(cells: map<Coord, Tile>, c: Coord, t: Tile)
    requires c !in cells
    ensures Values(cells[c := t]) == Values(cells) + {t.value}
  {
    var m := cells[c := t];
    forall v | v in Values(m) ensures v in Values(cells) + {t.value} {
      var e :| e in m && m[e].value == v;
      if e != c {
        assert v in Values(cells);
      }
    }
    forall v | v in Values(cells) ensures v in Values(m) {
      var e :| e in cells && cells[e].value == v;
      assert m[e].value == v;
    }
    assert m[c].value == t.value;
  }

  /** The first two seed tiles: a 2 and a 3 on an empty board. */
  function SeedSmall(cfg: Config, game: Game, s1: int, s2: int): (r: Game)
    requires ValidConfig(cfg) && Size(cfg.grid) >= 3 && game.cells == map[]
    requires 0 <= s1 < Size(cfg.grid) && 0 <= s2 < Size(cfg.grid)
    ensures |r.cells| == 2 && Values(r.cells) == {2, 3}
    ensures WellFormed(cfg, r.cells) && NoPrime(r.cells) && Unlocked(r.cells) && TileCount(r.cells) == 2
    ensures r.manager == game.manager && r.streak == game.streak
  {
    RoomLeft(cfg, game.cells);
    assert Values(game.cells) == {} && Listed(game.cells) == {};
    var t1 := CreateSpecificTile(cfg, game, s1, 2);
    SpawnShows(cfg, game, s1, 2);
    assert |t1.cells| == 1 && Values(t1.cells) == {2};
    assert WellFormed(cfg, t1.cells) && NoPrime(t1.cells) && Unlocked(t1.cells);
    RoomLeft(cfg, t1.cells);
    SpawnShows(cfg, t1, s2, 3);
    CreateSpecificTile(cfg, t1, s2, 3)
  }

  /** Seeds an empty board with one 2, one 3 and one 5. */
  function Seed(cfg: Config, game: Game, s1: int, s2: int, s3: int): (r: Game)
    requires ValidConfig(cfg) && Size(cfg.grid) >= 3 && game.cells == map[]
    requires 0 <= s1 < Size(cfg.grid) && 0 <= s2 < Size(cfg.grid) && 0 <= s3 < Size(cfg.grid)
    ensures |r.cells| == 3 && Values(r.cells) == {2, 3, 5}
    ensures WellFormed(cfg, r.cells) && NoPrime(r.cells) && Unlocked(r.cells) && TileCount(r.cells) == 3
    ensures r.manager == game.manager && r.streak == game.streak
  {
    var t2 := SeedSmall(cfg, game, s1, s2);
    assert WellFormed(cfg, t2.cells) && NoPrime(t2.cells) && Unlocked(t2.cells);
    RoomLeft(cfg, t2.cells);
    SpawnShows(cfg, t2, s3, 5);
    CreateSpecificTile(cfg, t2, s3, 5)
  }

  /** A new game on a grid of at least three cells, with the three start
      indices of the empty-cell searches and the preview draw. The spawn
      counters are not reset. */
  function NewGame(cfg: Config, game: Game, s1: int, s2: int, s3: int, draw: real): (r: Game)
    requires ValidConfig(cfg) && Size(cfg.grid) >= 3
    requires 0 <= s1 < Size(cfg.grid) && 0 <= s2 < Size(cfg.grid) && 0 <= s3 < Size(cfg.grid)
    ensures |r.cells| == 3 && Values(r.cells) == {2, 3, 5}
    ensures WellFormed(cfg, r.cells) && NoPrime(r.cells) && Unlocked(r.cells) && TileCount(r.cells) == 3
    ensures r.manager.score == 0 && r.manager.hiscore >= game.manager.hiscore
    ensures r.manager.nextTile == 2 || r.manager.nextTile == 3
    ensures r.manager.highestTile == game.manager.highestTile && r.manager.lastBoard == game.manager.lastBoard
    ensures r.streak == game.streak
    ensures r.manager == PrepareNextTile(SetScore(game.manager, 0), draw)
  {
    var cleared := ClearBoard(game.(manager := SetScore(game.manager, 0)));
    var seeded := Seed(cfg, cleared, s1, s2, s3);
    seeded.(manager := PrepareNextTile(seeded.manager, draw))
  }
}

=== FILE: spawn.dfy ===
/** Spawning tiles (TileBoard.cs `CreateTileClassic`, `CreateTileWithST`,
    `CreateSpecificTile`, `TriggerPrimeTileEffect`): the anti-streak rule for
    spawned numbers, the placement of a new tile in an empty cell, and the
    prime tiles 2222 and 3333 that turn every live 2 or 3 into a 5.

    The random draws are parameters: `start` is the start index of the
    empty-cell search (uniform in [0, size)), `roll` the special-tile roll
    (uniform in [0, 50)) and `draw` the preview draw in [0, 1]. */
module Spawning {
  import opened Options
  import opened TileGrid
  import opened GameManager
  import opened Board

  // ---------------------------------------------------------------------------
  // The anti-streak rule

  /** The number to spawn and the updated counters. A forced spawn is the
      other small number and restarts the streak at 0; otherwise the preview is
      spawned, a repeat extends the streak and a third repeat forces the next
      spawn, while a new number restarts the streak at 1. */
  function NextSpawn(s: SpawnStreak, preview: int): (r: (int, SpawnStreak))
    ensures s.forceNext ==> r.0 == Other(s.lastSpawned) && r.0 != s.lastSpawned && r.1 == SpawnStreak(r.0, 0, false)
    ensures !s.forceNext ==> r.0 == preview
    ensures r.1.lastSpawned == r.0
    ensures !s.forceNext && preview != s.lastSpawned ==> r.1 == SpawnStreak(preview, 1, false)
    ensures r.1.forceNext ==> !s.forceNext && preview == s.lastSpawned && r.1.sameTileStreak == 0
    ensures s.sameTileStreak >= 0 ==> r.1.sameTileStreak >= 0
    ensures r.0 == s.lastSpawned && !r.1.forceNext ==> r.1.sameTileStreak == s.sameTileStreak + 1
    ensures !s.forceNext && preview == s.lastSpawned ==> (r.1.forceNext <==> s.sameTileStreak + 1 >= 3)
  {
    if s.forceNext then
      var n := Other(s.lastSpawned);
      (n, SpawnStreak(n, 0, false))
    else if preview == s.lastSpawned then
      var k := s.sameTileStreak + 1;
      if k >= 3 then (preview, SpawnStreak(preview, 0, true))
      else (preview, SpawnStreak(preview, k, false))
    else
      (preview, SpawnStreak(preview, 1, false))
  }

  /** The numbers spawned for a sequence of previews. */
  function SpawnNumbers(s: SpawnStreak, previews: seq<int>): (r: seq<int>)
    ensures |r| == |previews|
    decreases |previews|
  {
    if previews == [] then []
    else
      var (n, s') := NextSpawn(s, previews[0]);
      [n] + SpawnNumbers(s', previews[1..])
  }

  /** Five equal numbers in a row starting at `i`. */
  predicate FiveInARow(p: seq<int>, i: int)
    requires 0 <= i && i + 4 < |p|
  {
    p[i] == p[i + 1] && p[i + 1] == p[i + 2] && p[i + 2] == p[i + 3] && p[i + 3] == p[i + 4]
  }

  /** Whatever the previews, the anti-streak rule never spawns the same number
      five times in a row. */
  lemma {:induction false} NoFiveEqualSpawns(s: SpawnStreak, previews: seq<int>)
    requires s.sameTileStreak >= 0
    ensures forall i :: 0 <= i && i + 4 < |previews| ==> !FiveInARow(SpawnNumbers(s, previews), i)
    decreases |previews|
  {
    if previews != [] {
      var p := SpawnNumbers(s, previews);
      var (n0, s1) := NextSpawn(s, previews[0]);
      var tail := SpawnNumbers(s1, previews[1..]);
      NoFiveEqualSpawns(s1, previews[1..]);
      assert p == [n0] + tail;
      forall i | 0 <= i && i + 4 < |previews| ensures !FiveInARow(p, i) {
        if i == 0 {
          SpawnRunEnds(s1, previews[1..]);
        } else {
          assert FiveInARow(p, i) == FiveInARow(tail, i - 1);
        }
      }
    }
  }

  /** After any spawn the next four spawns are not all repeats of it. */
  lemma SpawnRunEnds(s: SpawnStreak, previews: seq<int>)
    requires s.sameTileStreak >= 0 && |previews| >= 4
    ensures var p := SpawnNumbers(s, previews);
            !(p[0] == s.lastSpawned && p[1] == p[0] && p[2] == p[1] && p[3] == p[2])
  {
    var (n1, s2) := NextSpawn(s, previews[0]);
    var (n2, s3) := NextSpawn(s2, previews[1]);
    var (n3, s4) := NextSpawn(s3, previews[2]);
    var (n4, s5) := NextSpawn(s4, previews[3]);
    var p := SpawnNumbers(s, previews);
    var t1 := SpawnNumbers(s2, previews[1..]);
    assert p == [n1] + t1;
    var t2 := SpawnNumbers(s3, previews[2..]);
    assert previews[1..][1..] == previews[2..];
    assert t1 == [n2] + t2;
    var t3 := SpawnNumbers(s4, previews[3..]);
    assert previews[2..][1..] == previews[3..];
    assert t2 == [n3] + t3;
    assert t3[0] == n4;
  }

  /** A run of four does happen: a forced 3 followed by three previews of 3,
      after which the next spawn is forced back to 2. */
  lemma FourEqualSpawnsHappen()
    ensures SpawnNumbers(SpawnStreak(2, 0, true), [3, 3, 3, 3, 3]) == [3, 3, 3, 3, 2]
  {
  }

  // ---------------------------------------------------------------------------
  // Placing tiles

  /** A tile with number `number` goes into the first empty cell found from
      `start`. A number the state table does not know leaves the tile at its
      initial number 0. */
  function CreateSpecificTile(cfg: Config, game: Game, start: int, number: int): (r: Game)
    requires ValidConfig(cfg) && WellFormed(cfg, game.cells)
    requires 0 <= start < Size(cfg.grid) && !Full(cfg.grid, game.cells.Keys)
    ensures var e := GetRandomEmptyCell(cfg.grid, game.cells.Keys, start).value;
            r.cells == game.cells[e := Tile(if number in cfg.table then number else 0, false, false)]
    ensures exists c :: c !in game.cells && InBounds(cfg.grid, c) && r.cells.Keys == game.cells.Keys + {c}
    ensures WellFormed(cfg, r.cells)
    ensures NoPrime(game.cells) ==> NoPrime(r.cells)
    ensures TileCount(r.cells) == TileCount(game.cells) + 1 && |r.cells| == |game.cells| + 1
    ensures r.streak == game.streak && r.manager == game.manager
    ensures Unlocked(game.cells) ==> Unlocked(r.cells)
  {
    var c := GetRandomEmptyCell(cfg.grid, game.cells.Keys, start).value;
    var t := Tile(if number in cfg.table then number else 0, false, false);
    assert c !in game.cells && InBounds(cfg.grid, c);
    assert game.cells[c := t].Keys == game.cells.Keys + {c};
    assert Listed(game.cells[c := t]) == Listed(game.cells) + {c};
    game.(cells := game.cells[c := t])
  }

  /** A classic spawn: the number comes from the anti-streak rule and the
      preview, the tile goes into an empty cell, and a new preview is drawn. */
  function CreateTileClassic(cfg: Config, game: Game, start: int, draw: real): (r: Game)
    requires ValidConfig(cfg) && WellFormed(cfg, game.cells)
    requires 0 <= start < Size(cfg.grid) && !Full(cfg.grid, game.cells.Keys)
    ensures var (n, st) := NextSpawn(game.streak, game.manager.nextTile);
            && r.streak == st
            && var e := GetRandomEmptyCell(cfg.grid, game.cells.Keys, start).value;
               r.cells == game.cells[e := Tile(if n in cfg.table then n else 0, false, false)]
    ensures exists c :: c !in game.cells && InBounds(cfg.grid, c) && r.cells.Keys == game.cells.Keys + {c}
    ensures WellFormed(cfg, r.cells)
    ensures NoPrime(game.cells) ==> NoPrime(r.cells)
    ensures TileCount(r.cells) == TileCount(game.cells) + 1 && |r.cells| == |game.cells| + 1
    ensures r.manager.nextTile == 2 || r.manager.nextTile == 3
    ensures r.manager.score == game.manager.score && r.manager.hiscore == game.manager.hiscore
    ensures r.manager.lastBoard == game.manager.lastBoard
    ensures Unlocked(game.cells) ==> Unlocked(r.cells)
    ensures r.manager == PrepareNextTile(game.manager, draw)
  {
    var (n, st) := NextSpawn(game.streak, game.manager.nextTile);
    var placed := CreateSpecificTile(cfg, game, start, n);
    placed.(streak := st, manager := PrepareNextTile(game.manager, draw))
  }

  /** The effect of a prime tile: every other live tile showing `target` turns
      into a 5 (keeping its lock), and the prime tile itself leaves the live
      list while it stays in its cell until it expires. */
  function TriggerPrimeTileEffect(cells: map<Coord, Tile>, target: int, prime: Coord): (r: map<Coord, Tile>)
    requires prime in cells
    ensures r.Keys == cells.Keys
    ensures r[prime] == cells[prime].(prime := true)
    ensures forall c :: c in cells && c != prime ==>
              r[c].locked == cells[c].locked && r[c].prime == cells[c].prime
    ensures forall c :: c in Listed(cells) && c != prime && cells[c].value == target ==> r[c].value == 5
    ensures forall c :: c in cells && c != prime && (cells[c].prime || cells[c].value != target) ==> r[c] == cells[c]
    ensures Listed(r) == Listed(cells) - {prime}
    ensures target != 5 ==> forall c :: c in Listed(r) ==> r[c].value != target
  {
    map c | c in cells ::
      if c == prime then cells[c].(prime := true)
      else if !cells[c].prime && cells[c].value == target then cells[c].(value := 5)
      else cells[c]
  }

  /** A prime spawn: the prime tile `number` (2222 or 3333) goes into an empty
      cell and clears every live `target` into a 5. The counters and the
      preview are untouched. */
  function SpawnPrime(cfg: Config, game: Game, start: int, target: int, number: int): (r: Game)
    requires ValidConfig(cfg) && WellFormed(cfg, game.cells)
    requires 0 <= start < Size(cfg.grid) && !Full(cfg.grid, game.cells.Keys)
    requires target != 5
    ensures var e := GetRandomEmptyCell(cfg.grid, game.cells.Keys, start).value;
            && r.cells == TriggerPrimeTileEffect(game.cells[e := Tile(number, false, false)], target, e)
            && r.cells[e] == Tile(number, false, true)
    ensures exists c :: c !in game.cells && InBounds(cfg.grid, c) && r.cells.Keys == game.cells.Keys + {c}
    ensures WellFormed(cfg, r.cells)
    ensures TileCount(r.cells) == TileCount(game.cells) && |r.cells| == |game.cells| + 1
    ensures forall c :: c in Listed(r.cells) ==> r.cells[c].value != target
    ensures r.streak == game.streak && r.manager == game.manager
    ensures Unlocked(game.cells) ==> Unlocked(r.cells)
  {
    var c := GetRandomEmptyCell(cfg.grid, game.cells.Keys, start).value;
    var placed := game.cells[c := Tile(number, false, false)];
    var cells := TriggerPrimeTileEffect(placed, target, c);
    assert Listed(placed) == Listed(game.cells) + {c};
    assert cells.Keys == game.cells.Keys + {c};
    game.(cells := cells)
  }

  /** A spawn in special-tile mode: a roll of 22 spawns the prime 2222, a roll
      of 33 the prime 3333, and any other roll a classic spawn. */
  function CreateTileWithST(cfg: Config, game: Game, start: int, roll: int, draw: real): (r: Game)
    requires ValidConfig(cfg) && WellFormed(cfg, game.cells)
    requires 0 <= start < Size(cfg.grid) && !Full(cfg.grid, game.cells.Keys)
    requires 0 <= roll < 50
    ensures roll == 22 ==> forall c :: c in Listed(r.cells) ==> r.cells[c].value != 2
    ensures roll == 33 ==> forall c :: c in Listed(r.cells) ==> r.cells[c].value != 3
    ensures roll == 22 || roll == 33 ==> r.streak == game.streak && r.manager == game.manager
                                         && TileCount(r.cells) == TileCount(game.cells)
    ensures roll == 22 ==> r == SpawnPrime(cfg, game, start, 2, 2222)
    ensures roll == 33 ==> r == SpawnPrime(cfg, game, start, 3, 3333)
    ensures roll != 22 && roll != 33 ==> r == CreateTileClassic(cfg, game, start, draw)
    ensures WellFormed(cfg, r.cells) && |r.cells| == |game.cells| + 1
    ensures exists c :: c !in game.cells && InBounds(cfg.grid, c) && r.cells.Keys == game.cells.Keys + {c}
    ensures Unlocked(game.cells) ==> Unlocked(r.cells)
    ensures r.manager == game.manager.(nextTile := r.manager.nextTile, sameNextTileStreak := r.manager.sameNextTileStreak)
  {
    if roll == 22 then SpawnPrime(cfg, game, start, 2, 2222)
    else if roll == 33 then SpawnPrime(cfg, game, start, 3, 3333)
    else CreateTileClassic(cfg, game, start, draw)
  }

  /** One spawn, in the mode the game manager selects. */
  function CreateTile(cfg: Config, game: Game, start: int, roll: int, draw: real): (r: Game)
    requires ValidConfig(cfg) && WellFormed(cfg, game.cells)
    requires 0 <= start < Size(cfg.grid) && !Full(cfg.grid, game.cells.Keys)
    requires 0 <= roll < 50
    ensures WellFormed(cfg, r.cells) && |r.cells| == |game.cells| + 1
    ensures exists c :: c !in game.cells && InBounds(cfg.grid, c) && r.cells.Keys == game.cells.Keys + {c}
    ensures TileCount(game.cells) <= TileCount(r.cells) <= TileCount(game.cells) + 1
    ensures game.manager.specialTileMode ==> r == CreateTileWithST(cfg, game, start, roll, draw)
    ensures !game.manager.specialTileMode ==> r == CreateTileClassic(cfg, game, start, draw)
    ensures r.manager.score == game.manager.score && r.manager.lastBoard == game.manager.lastBoard
    ensures r.manager.specialTileMode == game.manager.specialTileMode
    ensures Unlocked(game.cells) ==> Unlocked(r.cells)
    ensures r.manager == game.manager.(nextTile := r.manager.nextTile, sameNextTileStreak := r.manager.sameNextTileStreak)
  {
    if game.manager.specialTileMode then CreateTileWithST(cfg, game, start, roll, draw)
    else CreateTileClassic(cfg, game, start, draw)
  }

  /** A prime tile's delayed self-destruction: if the tile is still waiting in
      cell `at`, the cell is emptied. A prime tile that has meanwhile merged
      away is gone already, and nothing happens. */
  function ExpirePrime(game: Game, at: Coord): (r: Game)
    ensures at in game.cells && game.cells[at].prime ==> r.cells == game.cells - {at}
    ensures !(at in game.cells && game.cells[at].prime) ==> r == game
    ensures Listed(r.cells) == Listed(game.cells)
    ensures r.streak == game.streak && r.manager == game.manager
  {
    if at in game.cells && game.cells[at].prime then game.(cells := game.cells - {at}) else game
  }
}

=== FILE: tile.dfy ===
/** Tile objects and their cell back-references (Tile.cs).

    A tile knows the cell it sits in and a cell knows the tile in it. The
    heap below holds both directions of that link; `Spawn`, `MoveTo` and
    `Merge` rewrite them, and each keeps the two directions in agreement. */
module TileObjects {
  import opened Options
  import opened TileGrid

  type TileId = nat

  /** A tile object: its number, its merge lock and the cell it occupies
      (none once it has been merged away). */
  datatype TileObj = TileObj(number: int, locked: bool, cell: Option<Coord>)

  /** The live tile objects, and for each occupied cell the tile it holds. */
  datatype Heap = Heap(tiles: map<TileId, TileObj>, cellTile: map<Coord, TileId>)

  /** Each cell's tile points back at that cell, and each placed tile's cell
      points at that tile. */
  predicate Consistent(h: Heap) {
    && (forall c :: c in h.cellTile ==> h.cellTile[c] in h.tiles && h.tiles[h.cellTile[c]].cell == Some(c))
    && (forall t :: t in h.tiles && h.tiles[t].cell.Some? ==>
          h.tiles[t].cell.value in h.cellTile && h.cellTile[h.tiles[t].cell.value] == t)
  }

  /** The cell-to-tile references once the tile's current cell, if any, has
      dropped its reference to the tile. */
  function Detach(h: Heap, t: TileId): map<Coord, TileId>
    requires t in h.tiles
  {
    match h.tiles[t].cell
    case None => h.cellTile
    case Some(prev) => h.cellTile - {prev}
  }

  /** Gives the tile a new number; its cell and lock are untouched. */
  function SetState(h: Heap, t: TileId, number: int): (r: Heap)
    requires t in h.tiles
    ensures r.tiles.Keys == h.tiles.Keys && r.cellTile == h.cellTile
    ensures r.tiles[t].number == number
    ensures r.tiles[t].cell == h.tiles[t].cell && r.tiles[t].locked == h.tiles[t].locked
    ensures forall u :: u in h.tiles && u != t ==> r.tiles[u] == h.tiles[u]
    ensures Consistent(h) ==> Consistent(r)
  {
    h.(tiles := h.tiles[t := h.tiles[t].(number := number)])
  }

  /** Puts the tile into cell `c`: the previous cell, if any, forgets it, then
      tile and cell point at each other. */
  function Spawn(h: Heap, t: TileId, c: Coord): (r: Heap)
    requires t in h.tiles
    ensures r.tiles.Keys == h.tiles.Keys
    ensures c in r.cellTile && r.cellTile[c] == t && r.tiles[t].cell == Some(c)
    ensures h.tiles[t].cell.Some? && h.tiles[t].cell.value != c ==> h.tiles[t].cell.value !in r.cellTile
    ensures r.tiles[t].number == h.tiles[t].number && r.tiles[t].locked == h.tiles[t].locked
    ensures forall u :: u in h.tiles && u != t ==> r.tiles[u] == h.tiles[u]
    ensures forall d :: d in h.cellTile && d != c && Some(d) != h.tiles[t].cell ==>
              d in r.cellTile && r.cellTile[d] == h.cellTile[d]
    ensures Consistent(h) && (c !in h.cellTile || h.cellTile[c] == t) ==> Consistent(r)
  {
    Heap(h.tiles[t := h.tiles[t].(cell := Some(c))], Detach(h, t)[c := t])
  }

  /** Slides the tile into `target`: the old cell is emptied and tile and
      target point at each other. The animation is not modelled. */
  function MoveTo(h: Heap, t: TileId, target: Coord): (r: Heap)
    requires t in h.tiles
    ensures r.tiles.Keys == h.tiles.Keys
    ensures target in r.cellTile && r.cellTile[target] == t && r.tiles[t].cell == Some(target)
    ensures h.tiles[t].cell.Some? && h.tiles[t].cell.value != target ==> h.tiles[t].cell.value !in r.cellTile
    ensures r.tiles[t].number == h.tiles[t].number && r.tiles[t].locked == h.tiles[t].locked
    ensures forall u :: u in h.tiles && u != t ==> r.tiles[u] == h.tiles[u]
    ensures Consistent(h) && (target !in h.cellTile || h.cellTile[target] == t) ==> Consistent(r)
  {
    Heap(h.tiles[t := h.tiles[t].(cell := Some(target))], Detach(h, t)[target := t])
  }

  /** Collapses the tile into `target`: its old cell is emptied, the tile
      leaves the board (no cell), and the tile in the target cell is locked. */
  function Merge(h: Heap, t: TileId, target: Coord): (r: Heap)
    requires t in h.tiles
    ensures r.tiles.Keys == h.tiles.Keys
    ensures r.tiles[t].cell == None && r.tiles[t].number == h.tiles[t].number
    ensures h.tiles[t].cell.Some? ==> h.tiles[t].cell.value !in r.cellTile
    ensures forall d :: d in r.cellTile ==> d in h.cellTile && r.cellTile[d] == h.cellTile[d]
    ensures Consistent(h) && h.tiles[t].cell != Some(target) && target in h.cellTile ==>
              r.tiles[h.cellTile[target]].locked
    ensures forall u :: u in h.tiles && u != t ==>
              r.tiles[u].number == h.tiles[u].number && r.tiles[u].cell == h.tiles[u].cell
    ensures forall u :: u in h.tiles && u != t && !(target in h.cellTile && u == h.cellTile[target]) ==>
              r.tiles[u] == h.tiles[u]
    ensures Consistent(h) ==> Consistent(r)
  {
    var cells := Detach(h, t);
    var tiles := h.tiles[t := h.tiles[t].(cell := None)];
    if target in cells && cells[target] in tiles then
      Heap(tiles[cells[target] := tiles[cells[target]].(locked := true)], cells)
    else
      Heap(tiles, cells)
  }
}

=== FILE: turn.dfy ===
/** The end of a turn (TileBoard.cs `WaitForChange`, `CheckForGameOver`):
    after a move that changed the board the live tiles are unlocked, a tile is
    spawned unless the live list fills the grid, and the game-over test runs.
    The short wait before settling and the game-over screen are not modelled;
    the game-over verdict is returned instead. */
module Turns {
  import opened Options
  import opened TileGrid
  import opened GameManager
  import opened Board
  import opened Codec
  import opened Moves
  import opened Spawning

  /** Clears the merge lock of every live tile. A prime tile waiting to be
      destroyed is not in the live list and keeps its lock. */
  function Unlock(cells: map<Coord, Tile>): (r: map<Coord, Tile>)
    ensures r.Keys == cells.Keys && Listed(r) == Listed(cells)
    ensures Unlocked(r)
    ensures forall c :: c in cells ==> r[c].value == cells[c].value && r[c].prime == cells[c].prime
    ensures forall c :: c in cells && cells[c].prime ==> r[c] == cells[c]
  {
    map c | c in cells :: if cells[c].prime then cells[c] else cells[c].(locked := false)
  }

  // ---------------------------------------------------------------------------
  // Game over

  /** The neighbour of the tile at `c` in direction `d` holds a tile it may
      merge into. */
  predicate CanMergeToward(cfg: Config, cells: map<Coord, Tile>, c: Coord, d: Direction)
    requires ValidConfig(cfg) && c in cells
  {
    var n := Adjacent(cfg.grid, c, d);
    n.Some? && n.value in cells && CanMerge(cells[c], cells[n.value])
  }

  /** The board is stuck: the live tiles fill the grid and none of them can
      merge into a neighbour in any direction. */
  predicate Stalemate(cfg: Config, cells: map<Coord, Tile>)
    requires ValidConfig(cfg)
  {
    && TileCount(cells) == Size(cfg.grid)
    && forall c, d :: c in Listed(cells) ==> !CanMergeToward(cfg, cells, c, d)
  }

  /** The game-over test: not over while the live list is shorter than the
      grid; otherwise over exactly when no live tile can merge into its upper,
      lower, left or right neighbour. The scan is over the cells in row-major
      order; its verdict does not depend on the order. */
  method CheckForGameOver(cfg: Config, cells: map<Coord, Tile>) returns (over: bool)
    requires ValidConfig(cfg) && WellFormed(cfg, cells)
    ensures over <==> Stalemate(cfg, cells)
  {
    var g := cfg.grid;
    if TileCount(cells) != Size(g) {
      return false;
    }
    var i := 0;
    while i < Size(g)
      invariant 0 <= i <= Size(g)
      invariant forall j, d :: 0 <= j < i && CellAt(g, j) in Listed(cells) ==> !CanMergeToward(cfg, cells, CellAt(g, j), d)
    {
      var c := CellAt(g, i);
      if c in Listed(cells) {
        if CanMergeToward(cfg, cells, c, Up) || CanMergeToward(cfg, cells, c, Down)
           || CanMergeToward(cfg, cells, c, Left) || CanMergeToward(cfg, cells, c, Right)
        {
          return false;
        }
        assert forall d :: !CanMergeToward(cfg, cells, c, d) by {
          forall d ensures !CanMergeToward(cfg, cells, c, d) {
            match d
            case Up =>
            case Down =>
            case Left =>
            case Right =>
          }
        }
      }
      i := i + 1;
    }
    forall c, d | c in Listed(cells) ensures !CanMergeToward(cfg, cells, c, d) {
      FlatIndexInBounds(g, c);
    }
    return true;
  }

  /** When the live tiles fill the grid, every cell of the grid holds a live
      tile. */
  lemma FilledGrid(cfg: Config, cells: map<Coord, Tile>)
    requires ValidConfig(cfg) && WellFormed(cfg, cells) && TileCount(cells) == Size(cfg.grid)
    ensures forall c :: InBounds(cfg.grid, c) ==> c in Listed(cells)
  {
    CountInBounds(cfg.grid, Listed(cells));
    forall c | InBounds(cfg.grid, c) ensures c in Listed(cells) {
      FlatIndexInBounds(cfg.grid, c);
    }
  }

  /** Visiting cells whose tiles are all stuck changes nothing. */
  lemma {:induction false} MoveAllStuck(cfg: Config, game: Game, d: Direction, order: seq<Coord>)
    requires ValidConfig(cfg) && WellFormed(cfg, game.cells)
    requires forall c :: c in order && c in game.cells ==> Stuck(cfg, game.cells, c, d)
    ensures MoveAll(cfg, game, d, order) == (game, false)
    decreases |order|
  {
    if order != [] {
      if order[0] in game.cells {
        MoveTileStuck(cfg, game, order[0], d);
      }
      MoveAllStuck(cfg, game, d, order[1..]);
    }
  }

  /** A visit that reports no change leaves every visited tile where it
      would not move on its own. */
  lemma {:induction false} MoveAllUnchanged(cfg: Config, game: Game, d: Direction, order: seq<Coord>)
    requires ValidConfig(cfg) && WellFormed(cfg, game.cells)
    requires !MoveAll(cfg, game, d, order).1
    ensures forall c :: c in order && c in game.cells ==> !MoveTile(cfg, game, c, d).1
    decreases |order|
  {
    if order != [] {
      MoveAllUnchanged(cfg, game, d, order[1..]);
    }
  }

  /** On a stuck board every tile is stuck in every direction. */
  lemma StalemateStuck(cfg: Config, cells: map<Coord, Tile>, c: Coord, d: Direction)
    requires ValidConfig(cfg) && WellFormed(cfg, cells) && Stalemate(cfg, cells) && c in cells
    ensures Stuck(cfg, cells, c, d)
  {
    FilledGrid(cfg, cells);
    assert c in Listed(cells) && !CanMergeToward(cfg, cells, c, d);
  }

  /** On a stuck board no move in any direction changes the board. */
  lemma GameOverMeansNoMove(cfg: Config, game: Game, d: Direction)
    requires ValidConfig(cfg) && WellFormed(cfg, game.cells) && Stalemate(cfg, game.cells)
    ensures !Move(cfg, game, d).1
  {
    var g0 := Snapshot(cfg, game);
    forall c | c in g0.cells ensures Stuck(cfg, g0.cells, c, d) {
      StalemateStuck(cfg, game.cells, c, d);
    }
    MoveAllStuck(cfg, g0, d, Order(cfg.grid, d));
  }

  /** A live tile that can merge into its neighbour in direction `d` makes the
      move in that direction change the board. */
  lemma MergeableMoves(cfg: Config, game: Game, c: Coord, d: Direction)
    requires ValidConfig(cfg) && WellFormed(cfg, game.cells)
    requires c in Listed(game.cells) && CanMergeToward(cfg, game.cells, c, d)
    ensures Move(cfg, game, d).1
  {
    var g := cfg.grid;
    var g0 := Snapshot(cfg, game);
    assert c in Order(g, d);
    assert MergesAfter(cfg, g0.cells, c, d, 0);
    MoveTileMerges(cfg, g0, c, d, 0);
    if !Move(cfg, game, d).1 {
      MoveAllUnchanged(cfg, g0, d, Order(g, d));
    }
  }

  /** On a grid filled with live tiles, if no direction changes the board,
      the board is stuck: the game-over test is exact. */
  lemma NoMoveMeansGameOver(cfg: Config, game: Game)
    requires ValidConfig(cfg) && WellFormed(cfg, game.cells)
    requires TileCount(game.cells) == Size(cfg.grid)
    requires forall d :: !Move(cfg, game, d).1
    ensures Stalemate(cfg, game.cells)
  {
    forall c, d | c in Listed(game.cells) ensures !CanMergeToward(cfg, game.cells, c, d) {
      if CanMergeToward(cfg, game.cells, c, d) {
        MergeableMoves(cfg, game, c, d);
      }
    }
  }

  /** A 2-by-2 checkerboard of 2s and 3s is not over: every 2 can merge into
      a neighbouring 3. */
  lemma CheckerboardIsNotOver(cfg: Config, cells: map<Coord, Tile>)
    requires ValidConfig(cfg) && cfg.grid == Grid(2, 2)
    requires cells == map[Coord(0, 0) := Tile(2, false, false), Coord(1, 0) := Tile(3, false, false),
                          Coord(0, 1) := Tile(3, false, false), Coord(1, 1) := Tile(2, false, false)]
    ensures !Stalemate(cfg, cells)
  {
    assert Adjacent(cfg.grid, Coord(0, 0), Right) == Some(Coord(1, 0));
    assert CanMergeToward(cfg, cells, Coord(0, 0), Right);
  }

  /** A 2-by-2 board of 2s is over: 2s never merge with each other. */
  lemma AllTwosIsOver(cfg: Config, cells: map<Coord, Tile>)
    requires ValidConfig(cfg) && cfg.grid == Grid(2, 2)
    requires cells == map[Coord(0, 0) := Tile(2, false, false), Coord(1, 0) := Tile(2, false, false),
                          Coord(0, 1) := Tile(2, false, false), Coord(1, 1) := Tile(2, false, false)]
    ensures Stalemate(cfg, cells)
  {
    assert Listed(cells) == cells.Keys;
    assert |cells.Keys| == 4;
  }

  // ---------------------------------------------------------------------------
  // Settling and the whole turn

  /** The board after settling: the live tiles are unlocked and, unless the
      live list fills the grid, one tile is spawned into an empty cell. A
      spawn onto a full grid fails in the game, so a free cell is required
      whenever a spawn is due. */
  function Settled(cfg: Config, game: Game, start: int, roll: int, draw: real): (r: Game)
    requires ValidConfig(cfg) && WellFormed(cfg, game.cells)
    requires 0 <= start < Size(cfg.grid) && 0 <= roll < 50
    requires TileCount(game.cells) != Size(cfg.grid) ==> !Full(cfg.grid, game.cells.Keys)
    ensures TileCount(game.cells) == Size(cfg.grid) ==> r == game.(cells := Unlock(game.cells))
    ensures TileCount(game.cells) != Size(cfg.grid) ==>
              r == CreateTile(cfg, game.(cells := Unlock(game.cells)), start, roll, draw)
    ensures TileCount(game.cells) != Size(cfg.grid) ==>
              exists c :: c !in game.cells && InBounds(cfg.grid, c) && r.cells.Keys == game.cells.Keys + {c}
    ensures !game.manager.specialTileMode && TileCount(game.cells) != Size(cfg.grid) ==>
              forall c :: c in game.cells ==> c in r.cells && r.cells[c] == Unlock(game.cells)[c]
    ensures WellFormed(cfg, r.cells) && Unlocked(r.cells)
    ensures r.manager == game.manager.(nextTile := r.manager.nextTile, sameNextTileStreak := r.manager.sameNextTileStreak)
  {
    var unlocked := game.(cells := Unlock(game.cells));
    if TileCount(unlocked.cells) != Size(cfg.grid) then
      CreateTile(cfg, unlocked, start, roll, draw)
    else
      unlocked
  }

  /** Settles the board after a changing move and tests for game over. */
  method Settle(cfg: Config, game: Game, start: int, roll: int, draw: real) returns (r: Game, over: bool)
    requires ValidConfig(cfg) && WellFormed(cfg, game.cells)
    requires 0 <= start < Size(cfg.grid) && 0 <= roll < 50
    requires TileCount(game.cells) != Size(cfg.grid) ==> !Full(cfg.grid, game.cells.Keys)
    ensures r == Settled(cfg, game, start, roll, draw)
    ensures over <==> Stalemate(cfg, r.cells)
    ensures TileCount(game.cells) != Size(cfg.grid) ==> |r.cells| == |game.cells| + 1
  {
    r := Settled(cfg, game, start, roll, draw);
    over := CheckForGameOver(cfg, r.cells);
  }

  /** One player input: the move, and when it changed the board the settling
      step. The undo snapshot is taken even when nothing moves. */
  method Turn(cfg: Config, game: Game, d: Direction, start: int, roll: int, draw: real)
    returns (r: Game, moved: bool, over: bool)
    requires ValidConfig(cfg) && WellFormed(cfg, game.cells)
    requires 0 <= start < Size(cfg.grid) && 0 <= roll < 50
    ensures moved == Move(cfg, game, d).1
    ensures !moved ==> r == Move(cfg, game, d).0 && r.cells == game.cells && !over
    ensures moved ==> r == Settled(cfg, Move(cfg, game, d).0, start, roll, draw)
    ensures moved ==> |r.cells| <= |game.cells| + 1 && Unlocked(r.cells)
    ensures over <==> moved && Stalemate(cfg, r.cells)
    ensures r.manager.lastBoard == Some(GetBoardJson(cfg, game))
    ensures r.manager.lastScore == game.manager.score
    ensures WellFormed(cfg, r.cells)
  {
    var (g1, changed) := Move(cfg, game, d);
    moved := changed;
    if !changed {
      r, over := g1, false;
      return;
    }
    r, over := Settle(cfg, g1, start, roll, draw);
  }

  /** Restoring the snapshot a move took gives back the live tiles of the
      board before the move, unlocked, and its score. */
  lemma UndoRestoresBoard(cfg: Config, before: Game, d: Direction)
    requires ValidConfig(cfg) && WellFormed(cfg, before.cells)
    requires forall c :: c in Listed(before.cells) ==> before.cells[c].value in cfg.table
    ensures var after := Move(cfg, before, d).0;
            var undone := RestoreBoardFromJson(cfg, after, after.manager.lastBoard);
            undone.cells == LiveUnlocked(before.cells) && undone.manager.score == before.manager.score
  {
    SaveRestoreRoundTrip(cfg, before);
  }
}
